=== FILE: README.md ===
# redir: a Dafny model of a TCP port forwarder

`redir [-d] <port1> <host>:<port2>` listens on `port1`. It connects every
accepted client to `host:port2`, relays bytes both ways, and keeps a
process-wide count of relayed bytes in `total_data`. The program is a single
C file, `main.c`. Compile-time options pick one of three builds:
- THREADS: one detached thread per connection.
- SELECT: one connection at a time, relayed with `select`.
- AIO: every connection is driven as a POSIX asynchronous-I/O state machine,
  stepped once per turn of the accept loop.

This project models the decision logic of `main.c` as pure functions. Every
system call is replaced by an input: what `accept`, `select`, `read`, `write`,
`aio_error`, `aio_return`, `aio_read`/`aio_write` and `pthread_create`
returned.

| file | module | models |
|---|---|---|
| `base.dfy` | `Base` | `Option`, bytes, the conversion to `unsigned long long`, `BLOCK`, and the errno values |
| `args.dfy` | `Args` | the command-line check at the top of `main`: `atoi`, and `sscanf("%[^:]:%i")` with `%i` taking its base from the prefix |
| `relay.dfy` | `Relay` | `copy(int, int)`, the relay loop of the THREADS and SELECT builds, and the counter it settles |
| `aio.dfy` | `Aio` | `copy(struct conn_t*)`, one step of an AIO session |
| `registry.dfy` | `Registry` | the AIO build's session list: insert at the head, then sweep |
| `acceptor.dfy` | `Acceptor` | what the accept loop does with `accept` errors and `pthread_create` failures |

The relay loop takes the form of its read test as a parameter:
- `Unsigned` is the code as written. `bytes` is `unsigned long long`, so `<= 0` only catches 0.
- `Signed` is the evident intent. A failed read also ends the loop.

Behaviour of the code worth knowing before reading the model:
- A new AIO session is created with `write = 1` and nothing submitted, so its first step submits the first read, on whichever socket is ready.
- In the SELECT build a transient `accept` error is not skipped. The relay is called with descriptor -1, and its `nonblock(-1)` ends the whole process with `EXIT_FAILURE`; see Findings.
- One sweep removes at most one failed AIO session. Other sessions that would fail are not stepped until a later turn.

## Model

| member | source | states |
|---|---|---|
| `Args.ScanTargetSpec` | main.c:373-380 | `%[^:]:%i` from zeroed globals. The host never contains ':', and the argument starts with it; a non-zero port comes only from a successful `%i` right after the host's colon. An empty host part leaves host and port empty and 0; no colon leaves the port at 0. |
| `Args.ScanTargetFirstColon` | main.c:373-380 | The host is all the text before the first ':', or the whole argument without one. After that colon the port is the `%i` value, or stays 0 when the conversion fails. |
| `Args.ParseArgs` | main.c:369-390 | Usage always returns `EXIT_SUCCESS`. Anything but argc 3, or argc 4 with exactly "-d", is usage. A started configuration has both ports in 1..65534, a host of 1..127 characters without ':', the `atoi` value of the right argument, and daemonize exactly in the 4-argument form. |
| `Args.AcceptedExactly` | main.c:383-390 | A well-shaped argument list is accepted if and only if both converted ports are in 1..65534 and the host part is non-empty. |
| `Args.AtoiDigits` | main.c:374-377 | `atoi` reads a port written in decimal back as that port. |
| `Args.ScanPort` | main.c:375-378 | `%i` reads a port back whether it is written in decimal, in octal with a leading `0`, or in hex with `0x`. |
| `Args.LeadingSpaceSkipped` | main.c:374-378 | Both `atoi` and `%i` skip leading white space. |
| `Args.MinusNegates` | main.c:374-378 | A minus sign right before the digits negates what both conversions read. `%i` always reads a value from text that starts with a digit. |
| `Args.DecimalAgrees` | main.c:374-378 | Where the number does not start with `0`, `%i` reads exactly what `atoi` reads. Where `%i` fails for lack of a digit, `atoi` yields 0. |
| `Args.OctalReadByAtoi` | main.c:374-378 | A port written in octal with a leading `0` is read as that port by `%i`, but `atoi` reads the same digits as a decimal number. |
| `Args.AtoiZeroLed` | main.c:374-377 | `atoi` reads `0` followed by decimal digits as those digits: it is decimal only. |
| `Args.HexReadByAtoi` | main.c:374-378 | A port written in hex is read as that port by `%i`, while `atoi` reads 0. |
| `Args.AtoiHexPrefix` | main.c:374-377 | `atoi` stops at the `x` of a `0x` prefix and reads 0. |
| `Args.BareHexExample` | main.c:375-378 | `0x` with no hex digit after it: `%i` stores 0, as glibc does. |
| `Args.NoDigitExample` | main.c:374-378 | Text without a digit: `atoi` reads 0, and `%i` fails, leaving the zeroed port. |
| `Args.ParseRender` | main.c:369-390 | Round trip: every accepted configuration, written out with the target port in decimal, octal or hex, parses back to itself. |
| `Args.UsageExample` | main.c:4 | The usage line of the file header, `redir 2020 proxy.nsu.ru:8888`, starts with port 2020, host `proxy.nsu.ru` and port 8888, without daemonizing. |
| `Relay.CopyEndsExactly` | main.c:204-232 | The loop stops if and only if some pass ends it: select ≤ 0, a read the test rejects, or a write count different from the read. It stops at the first such pass, and the stop reason names that pass's cause. Otherwise it consumes every pass. |
| `Relay.CopyForwardsVerbatim` | main.c:219-232 | Every delivered chunk was read from one socket in a pass the loop reached that socket in (for outsock, insock had not ended the pass first) and was written unchanged to the other. Chunks appear in pass order, insock before outsock. Every fully forwarded chunk before the stop is delivered. |
| `Relay.ClosedBeforeOutsock` | main.c:219-226 | When insock reports end of stream, the pass ends before outsock is read, even if outsock was ready with data. Nothing is forwarded, and that outsock chunk does not count as forwarded. |
| `Relay.CopyAccounting` | main.c:187-231 | `local_data` is the forwarded byte count, less one per swallowed failed read, mod 2^64. The swallowed reads are exactly the trace's serviced reads that returned -1 and that the read test let through (`SwallowedIn`). With the signed test there are none. |
| `Relay.LoopSwallows` | main.c:205-232 | Pass by pass, the loop's count of swallowed reads equals the count of such reads in the passes it has made. |
| `Relay.SettleCountsForwarded` | main.c:234-241 | Once the loop has ended, `total_data` grows by the forwarded bytes less the swallowed failed reads, mod 2^64. Corrected (signed test): it grows by exactly the forwarded bytes. A session still relaying leaves it unchanged. |
| `Relay.IdleTeardown` | main.c:209-216 | A first select that times out ends the session with nothing forwarded and the counter unchanged. |
| `Relay.ReadErrorSwallowed` | main.c:220-224 | As written: a read of -1 followed by a write of -1 does not end the loop. It swallows one error, which the trace count confirms, and the counter drops by 1. |
| `Relay.ReadErrorEndsSession` | main.c:220-221 | Corrected: the same failed read ends the session in its first pass, with the counter unchanged. |
| `Relay.CounterAfterSessions` | main.c:505-510 | For any sequence of SELECT sessions, up to the first that has not ended, `total_data` is its start value plus all forwarded bytes less the swallowed failed reads, mod 2^64. Each session's swallowed reads are those its trace shows. With the signed test each session adds exactly its forwarded bytes. |
| `Relay.CounterAfterRuns` | main.c:234-241 | Settling `copy` results one after another, reducing mod 2^64 each time, equals adding their contributions once and reducing once. |
| `Relay.EchoRoundTrip` | main.c:219-241 | A message relayed out and echoed back is delivered verbatim both ways, and the counter grows by twice its length. |
| `Aio.Accepted` | main.c:514-529 | A new session targets its incoming socket with `write` set and a `BLOCK`-byte length. It is well formed when its two sockets differ. |
| `Aio.Step` | main.c:252-339 | Every step keeps the target one of the session's two sockets, and never changes the sockets. Write readiness 0 fails. EINPROGRESS succeeds with nothing changed. A completion with a non-zero status and a negative return fails. Only a completed read adds to the counter, by what it read. A successful completion flips `write`. |
| `Aio.AfterRead` | main.c:311-337 | After a read: 0 bytes fails. Otherwise the target becomes the other socket and the write length is the bytes read. The count is added even if the submission fails. Success happens exactly when the submission succeeds. |
| `Aio.AfterWrite` | main.c:274-304 | After a write: readiness 0 fails. Otherwise a `BLOCK`-byte read targets a ready socket, incoming winning when both are ready, and nothing is counted. Success happens exactly when `aio_read` succeeds. |
| `Aio.ErrorNeedsBoth` | main.c:263-270 | An error status with a non-negative return is not treated as a failure. |
| `Aio.SelectErrorPasses` | main.c:258-291 | A select result of -1 passes both readiness tests. |
| `Aio.FirstStep` | main.c:252-304 | A new session's first step reads a zeroed control block and behaves as if a write had just finished: it submits a read on a ready socket. |
| `Aio.ReadThenWrite` | main.c:274-337 | A successful read-then-write cycle writes the bytes read to the socket opposite the one read from, and counts them once. |
| `Aio.DriveKeepsSockets` | main.c:252-339 | Over any number of ticks the session keeps its sockets and a valid target. A successful run consumes every tick. |
| `Aio.DriveStopsAtFailure` | main.c:543-563 | A failed run stops at its first failing step. Every step before it succeeded, and the step after that successful prefix is the one that failed. |
| `Registry.Admit` | main.c:514-540 | A positive descriptor becomes a new session at the head, and the rest of the list follows unchanged. Otherwise the list is unchanged. |
| `Registry.Sweep` | main.c:543-566 | At most one session is removed, and only after at least one step. Without a removal every session is stepped and kept. |
| `Registry.SweepKeeps` | main.c:543-563 | The sessions before the first failure are stepped successfully and kept in place, in order. |
| `Registry.SweepRemoves` | main.c:545-564 | When a session is removed, it is the first whose step failed, and the sessions after it are kept untouched and not stepped. |
| `Registry.SweepShape` | main.c:543-566 | The sessions before the first failure are stepped successfully and kept in order. The first failing one is removed. The sessions after it are kept untouched and not stepped. |
| `Registry.SweepCounts` | main.c:543-563 | The sweep records one addition to `total_data` per stepped session, in list order, and each is exactly what that session's step added. |
| `Registry.TallySum` | main.c:327 | Adding to `total_data` mod 2^64 at every `+=` gives the start value plus the sum of all additions, mod 2^64. |
| `Registry.SweepKeepsDisjoint` | main.c:545-564 | The sweep keeps sessions disjoint. The removed session's sockets, which are closed, belong to no remaining session. No socket is gained or lost except by that removal. |
| `Registry.Tick` | main.c:514-566 | A turn that admits a connection steps at least one session. |
| `Registry.NewestFirst` | main.c:514-566 | A new session is stepped first in its own turn. It is at the head if that step succeeds. If it fails, it is the one removed and the old list is left as it was. |
| `Registry.TickKeepsDisjoint` | main.c:514-566 | With fresh descriptors from the kernel, each turn keeps all sessions' sockets disjoint. |
| `Acceptor.OnAccept` | main.c:459-510 | The decision on `accept`'s result. It exits if and only if `accept` failed with an error other than EHOSTUNREACH, ECONNRESET or ETIMEDOUT, and the status is `errno`. THREADS relays exactly the positive descriptors. SELECT, as written, calls the relay for every non-fatal result, dialling only for a positive descriptor. |
| `Acceptor.OnAcceptCorrected` | main.c:462-478 | Corrected SELECT: transient errors skip the turn, so exactly the non-negative descriptors are relayed. |
| `Acceptor.ResetIsRelayed` | main.c:462-509 | As written, SELECT calls the relay with descriptor -1 after ECONNRESET, and that turn ends the process with `EXIT_FAILURE`. The correction skips the turn. |
| `Acceptor.CorrectedAgrees` | main.c:462-478 | The correction changes only the SELECT build's transient errors, and there it matches the THREADS build. |
| `Acceptor.Turn` | main.c:459-510 | A turn exits if and only if one of three things happens: `accept` failed fatally; (THREADS) `pthread_create` failed with other than EAGAIN; or (SELECT) the relay is called with a negative descriptor, so `copy`'s `nonblock` (main.c:189-191) fails in `fcntl` and exits (main.c:111-115). The status is then `accept`'s `errno`, `pthread_create`'s `errno` or `EXIT_FAILURE`, respectively. It hands a descriptor on if and only if `accept` is served and the turn does not exit or drop; such a descriptor is never negative. |
| `Acceptor.Listen` | main.c:459-510 | The accept loop exits if and only if some turn is fatal. It then exits with the status of the first fatal turn, and it has handed on exactly the descriptors of the turns before that one that hand one on, in order. |
| `Acceptor.ListenServes` | main.c:459-510 | Without a fatal turn every result is consumed. The descriptors handed on are exactly those of the turns that hand one on, in order. An EAGAIN-dropped connection is not among them. |
| `Acceptor.SpawnFailures` | main.c:496-503 | A `pthread_create` failure other than EAGAIN ends the THREADS loop with `errno`. EAGAIN only drops that connection, and the next one is served. |
| `Acceptor.ThreadsServePositive` | main.c:480-496 | Every descriptor the THREADS build hands to a thread is positive. |
| `Acceptor.ServedValid` | main.c:462-509 | No build, as written or corrected, hands an error result on: as written the SELECT relay exits on it, and the correction skips it. |
| `Acceptor.SelectErrorExits` | main.c:462-509 | As written, ECONNRESET followed by a good connection 7 ends the SELECT server with `EXIT_FAILURE` before 7 is served. With the correction, 7 is served and the loop goes on. |
| `Acceptor.TransientKillsSelect` | main.c:462-509 | As written, a SELECT turn is fatal if and only if `accept` returned an error. A transient error exits with `EXIT_FAILURE` and any other with `errno`. |
| `Acceptor.CorrectedSkipsTransient` | main.c:462-503 | With the correction, a transient error skips the turn in both builds. A turn is fatal if and only if `accept` failed with a non-transient error, or (THREADS) a thread for a positive descriptor could not be created for a reason other than EAGAIN. |
| `Acceptor.OnSpawn` | main.c:496-503 | A `pthread_create` result of 0 runs the connection, EAGAIN drops it, and anything else exits with `errno`. |

## Left out

- Sockets and system calls (`socket`, `bind`, `listen`, `accept`, `select`, `read`, `write`, `aio_*`): not modelled; their results are inputs.
- `nonblock` (main.c:109-122): modelled only where its outcome is certain. `fcntl` on a negative descriptor fails, so the process exits with `EXIT_FAILURE` (`Acceptor.Turn`). On the descriptors the relay is otherwise given, `nonblock` is taken to succeed.
- `init_sock_final` (DNS lookup and `connect`, main.c:147-179): not modelled. It becomes the `final` descriptor parameter, and its exits on failure are not modelled.
- The listener setup in `main` (`socket`, `bind`, `setsockopt`, `listen`, exiting with `errno` on failure): not modelled; it is process plumbing before the loop.
- Signal handling (`quit`, `sighandle`) and `daemon()`: not modelled; these are process-level side effects.
- The pthread mutex and detached threads: not modelled. The counter update is taken as one atomic step, and THREADS sessions are not interleaved.
- `malloc` and the never-freed list nodes: not modelled; memory allocation is outside the model.
- The `memset(conn->aiocbp, 0, sizeof(conn->aiocbp))` that clears only a pointer's width (main.c:318, 322): not modelled; only the fields assigned afterwards are kept.
- The buffer contents in the AIO build: not modelled; a session carries descriptors and lengths, not bytes.
- DEBUG and COLORS output, and the TIMEOUT value: not modelled. A timeout is simply a `select` result of 0.
- Args.ParseArgs: requires `WellDefined`. That excludes `atoi` and `%i` results outside `int`, a host part longer than the 127 characters `host_to` holds, and NUL characters inside arguments. These are undefined behaviour in the source, not outcomes it handles.
- Aio.Step: takes `aio_return` as the `int` it is stored in. The truncation from `ssize_t` is not modelled.
- Acceptor.OnAccept: the exit status is the full `errno`. The 8-bit truncation of a process exit status is outside the program.
- The SELECT relay for descriptor 0, which reuses the previous `sock_final` without dialling: only modelled up to the call. Whether `nonblock` then exits depends on whether that number is still open, which the model does not track.

## Findings

| source | as written | input that shows it | evidently intended | confidence | as-written member | corrected member |
|---|---|---|---|---|---|---|
| main.c:187-224 | `bytes` is `unsigned long long`, so `read(...) <= 0` only catches 0. A failed read of -1 becomes 2^64-1. A write of that many bytes returns -1, which compares equal, so the loop goes on and `local_data` gains 2^64-1, dropping by 1 mod 2^64. | insock is ready; `read` returns -1; `write` returns -1; the next `select` times out. The counter ends one lower. | A failed read ends the session and adds nothing. | not executed; high | `Relay.ReadErrorSwallowed` | `Relay.ReadErrorEndsSession`, `Relay.SettleCountsForwarded` |
| main.c:462-509 | In the SELECT build the transient `accept` errors reach `break`, which leaves only the `switch`. `copy(sock_final, -1)` then runs. Its `nonblock` calls (main.c:189-191) run `fcntl` on the previous `sock_final` and then on -1. If the first does not fail, the second does, and `nonblock` exits with `EXIT_FAILURE` (main.c:111-115). One transient error ends the server. | `accept` returns -1 with `errno` ECONNRESET, then a connection arrives | Skip the turn ("do nothing"), as the THREADS build's `continue` does. | not executed; medium | `Acceptor.ResetIsRelayed`, `Acceptor.TransientKillsSelect`, `Acceptor.SelectErrorExits` | `Acceptor.CorrectedSkipsTransient`, `Acceptor.SelectErrorExits` |

=== FILE: acceptor.dfy ===
/** The decisions the acceptor loop of `main` takes on what `accept` and
    `pthread_create` return (main.c 459-512), for the two blocking builds.
    The AIO build tests only `sock_incoming > 0` and is modelled by
    `Registry.Admit`. */
module Acceptor {
  import opened Base

  /** The build, chosen at compile time by `-DTHREADS` or `-DSELECT`. */
  datatype Build = Threads | Select

  /** What one turn of the loop does after `accept`:
      - `Skip`: go back to `accept`;
      - `Exit(status)`: the process exits with that status;
      - `Serve(incoming, dial)`: relay for descriptor `incoming`, dialling a
        new `sock_final` first when `dial` holds (otherwise the previous
        `sock_final` is reused). */
  datatype Action = Skip | Exit(status: int) | Serve(incoming: int, dial: bool)

  /** The `accept` errors the program treats as transient. */
  predicate Transient(errno: int) {
    errno == EHOSTUNREACH || errno == ECONNRESET || errno == ETIMEDOUT
  }

  /** Lines 462-511 as written. `errno` is only consulted when `fd` is negative.
      In the SELECT build the transient cases reach `break`, which leaves
      only the `switch`, so the relay is still called with the negative
      descriptor and the previous `sock_final`; `Turn` says what that call
      does. */
  function OnAccept(build: Build, fd: int, errno: int): (r: Action)
    ensures r.Exit? <==> fd < 0 && !Transient(errno)
    ensures r.Exit? ==> r.status == errno
    ensures r.Serve? ==> r.incoming == fd && (r.dial <==> fd > 0)
    ensures build == Threads ==> (r.Serve? <==> fd > 0)
    ensures build == Select ==> (r.Serve? <==> fd >= 0 || Transient(errno))
  {
    if fd < 0 && !Transient(errno) then Exit(errno)
    else match build
      case Threads => if fd > 0 then Serve(fd, true) else Skip
      case Select => Serve(fd, fd > 0)
  }

  /** The SELECT build with a transient error skipping the turn, as the
      `continue` of the THREADS build does and as the comment "do nothing"
      says. A descriptor of 0 is still relayed, as in the source. */
  function OnAcceptCorrected(build: Build, fd: int, errno: int): (r: Action)
    ensures r.Exit? <==> fd < 0 && !Transient(errno)
    ensures r.Serve? ==> r.incoming == fd && fd >= 0
    ensures build == Select ==> (r.Serve? <==> fd >= 0)
  {
    if fd < 0 then (if Transient(errno) then Skip else Exit(errno))
    else match build
      case Threads => if fd > 0 then Serve(fd, true) else Skip
      case Select => Serve(fd, fd > 0)
  }

  /** The SELECT build as written calls the relay for descriptor -1 after a
      connection reset, `copy(sock_final, -1)`, and the process exits there. */
  lemma ResetIsRelayed()
    ensures OnAccept(Select, -1, ECONNRESET) == Serve(-1, false)
    ensures OnAcceptCorrected(Select, -1, ECONNRESET) == Skip
    ensures Turn(Select, false, Accepted(-1, ECONNRESET, 0, 0)) == Exit(EXIT_FAILURE)
    ensures Turn(Select, true, Accepted(-1, ECONNRESET, 0, 0)) == Skip
  {
  }

  /** The correction changes nothing but the SELECT build's transient
      errors, and there it agrees with the THREADS build. */
  lemma CorrectedAgrees(build: Build, fd: int, errno: int)
    ensures build == Threads || fd >= 0 || !Transient(errno) ==>
      OnAcceptCorrected(build, fd, errno) == OnAccept(build, fd, errno)
    ensures fd < 0 ==> OnAcceptCorrected(Select, fd, errno) == OnAccept(Threads, fd, errno)
  {
  }

  // ---------------------------------------------------------------------
  // Thread creation (THREADS build, lines 496-503).

  /** What happens after `pthread_create`: the connection is `Running` in its
      own thread, `Dropped` when resources are short (its descriptor stays
      open), or the process exits. */
  datatype Spawn = Running | Dropped | Quit(status: int)

  /** `rc` is what `pthread_create` returned. The exit status is `errno`,
      not `rc`: `pthread_create` reports its error only through `rc`. */
  function OnSpawn(rc: int, errno: int): (r: Spawn)
    ensures r == Running <==> rc == 0
    ensures r == Dropped <==> rc == EAGAIN
    ensures r.Quit? <==> rc != 0 && rc != EAGAIN
    ensures r.Quit? ==> r.status == errno
  {
    if rc == 0 then Running
    else if rc != EAGAIN then Quit(errno)
    else Dropped
  }

  // ---------------------------------------------------------------------
  // The loop over successive `accept` results.

  /** One turn's kernel results: the descriptor `accept` returned and
      `errno` afterwards, then (THREADS build only, ignored by SELECT) what
      `pthread_create` returned and `errno` after it. */
  datatype Accepted = Accepted(fd: int, errno: int, spawn: int, spawnErrno: int)

  /** The descriptors handed on, in order — to a running thread in the
      THREADS build, to the relay in the SELECT build — and the exit status
      if the loop ended. */
  datatype Listened = Listened(served: seq<int>, exit: Option<int>)

  /** The decision on `accept`'s result alone. */
  function Decide(build: Build, corrected: bool, a: Accepted): (r: Action)
    ensures r.Serve? ==> r.incoming == a.fd
    ensures r.Serve? && (build == Threads || corrected) ==> a.fd >= 0
    ensures r.Serve? && build == Threads ==> a.fd > 0
  {
    if corrected then OnAcceptCorrected(build, a.fd, a.errno) else OnAccept(build, a.fd, a.errno)
  }

  /** Whether the turn on `a` ends the process:
      - a fatal `accept` error;
      - in the THREADS build, a connection whose thread could not be
        created for a reason other than `EAGAIN`;
      - in the SELECT build, a relay called with a negative descriptor:
        `copy` first makes both sockets non-blocking (lines 190-191), and
        `fcntl` on a negative descriptor fails, so `nonblock` exits
        (lines 111-115). */
  predicate Fatal(build: Build, corrected: bool, a: Accepted) {
    || Decide(build, corrected, a).Exit?
    || (build == Threads && Decide(build, corrected, a).Serve? && OnSpawn(a.spawn, a.spawnErrno).Quit?)
    || (build == Select && Decide(build, corrected, a).Serve? && a.fd < 0)
  }

  /** Whether the turn on `a` hands a descriptor on and the loop goes on. */
  predicate Hands(build: Build, corrected: bool, a: Accepted) {
    Decide(build, corrected, a).Serve? && (if build == Threads then a.spawn == 0 else a.fd >= 0)
  }

  /** One turn: the decision on `accept`, then, in the THREADS build, the
      decision on `pthread_create`, and in the SELECT build, the relay's
      `nonblock` on the descriptor. */
  function Turn(build: Build, corrected: bool, a: Accepted): (r: Action)
    ensures r.Exit? <==> Fatal(build, corrected, a)
    ensures r.Serve? <==> Hands(build, corrected, a)
    ensures r.Serve? ==> r == Decide(build, corrected, a) && r.incoming >= 0
    ensures r.Exit? && Decide(build, corrected, a).Serve? ==>
      r.status == (if build == Threads then a.spawnErrno else EXIT_FAILURE)
    ensures r.Exit? && !Decide(build, corrected, a).Serve? ==> r.status == a.errno
  {
    var d := Decide(build, corrected, a);
    if !d.Serve? then d
    else match build
      case Threads =>
        (match OnSpawn(a.spawn, a.spawnErrno)
         case Running => d
         case Dropped => Skip
         case Quit(status) => Exit(status))
      case Select => if a.fd < 0 then Exit(EXIT_FAILURE) else d
  }

  /** As written, every error `accept` returns ends the SELECT build: a fatal
      one with `errno`, a transient one in the relay's `nonblock(-1)` with
      `EXIT_FAILURE`. */
  lemma TransientKillsSelect(a: Accepted)
    ensures Fatal(Select, false, a) <==> a.fd < 0
    ensures a.fd < 0 ==>
      Turn(Select, false, a) == Exit(if Transient(a.errno) then EXIT_FAILURE else a.errno)
  {
  }

  /** With the correction, a transient `accept` error skips the turn in both
      builds, and only a fatal `accept` error or a failed thread creation
      ends the loop. */
  lemma CorrectedSkipsTransient(build: Build, a: Accepted)
    ensures a.fd < 0 && Transient(a.errno) ==> Turn(build, true, a) == Skip
    ensures Fatal(build, true, a) <==>
      || (a.fd < 0 && !Transient(a.errno))
      || (build == Threads && a.fd > 0 && OnSpawn(a.spawn, a.spawnErrno).Quit?)
  {
  }

  /** The index of the first turn that ends the process, or `|results|`
      when none does. */
  function FirstFatal(build: Build, corrected: bool, results: seq<Accepted>): (k: nat)
    ensures k <= |results|
    ensures forall j :: 0 <= j < k ==> !Fatal(build, corrected, results[j])
    ensures k < |results| ==> Fatal(build, corrected, results[k])
    decreases |results|
  {
    if results == [] || Fatal(build, corrected, results[0]) then 0
    else 1 + FirstFatal(build, corrected, results[1..])
  }

  /** The loop `while(1)` of `main` driven by `results`, with the decision
      function chosen by `corrected`. */
  function Listen(build: Build, corrected: bool, results: seq<Accepted>): (r: Listened)
    ensures r.exit.None? <==> forall i :: 0 <= i < |results| ==> !Fatal(build, corrected, results[i])
    ensures var k := FirstFatal(build, corrected, results);
      && r.served == Handed(build, corrected, results[..k])
      && (k < |results| ==> r.exit == Some(Turn(build, corrected, results[k]).status))
    ensures |r.served| <= |results|
    decreases |results|
  {
    if results == [] then Listened([], None)
    else
      var k := FirstFatal(build, corrected, results);
      match Turn(build, corrected, results[0])
      case Exit(code) => Listened([], Some(code))
      case Skip =>
        assert results[..k][1..] == results[1..][..k - 1];
        Listen(build, corrected, results[1..])
      case Serve(fd, _) =>
        assert results[..k][1..] == results[1..][..k - 1];
        var rest := Listen(build, corrected, results[1..]);
        Listened([fd] + rest.served, rest.exit)
  }

  /** Without a fatal turn every result is consumed, and exactly the turns
      that hand a descriptor on contribute one, in order. */
  lemma {:induction false} ListenServes(build: Build, corrected: bool, results: seq<Accepted>)
    requires forall i :: 0 <= i < |results| ==> !Fatal(build, corrected, results[i])
    ensures Listen(build, corrected, results).served == Handed(build, corrected, results)
  {
    assert results[..|results|] == results;
  }

  /** The descriptors of the turns that hand one on, in order. */
  function Handed(build: Build, corrected: bool, results: seq<Accepted>): seq<int>
    decreases |results|
  {
    if results == [] then []
    else if Hands(build, corrected, results[0]) then [results[0].fd] + Handed(build, corrected, results[1..])
    else Handed(build, corrected, results[1..])
  }

  /** A thread that cannot be created ends the THREADS loop with `errno`;
      `EAGAIN` only drops that connection and the loop goes on. */
  lemma SpawnFailures()
    ensures Listen(Threads, false, [Accepted(5, 0, EPERM, EPERM)]) == Listened([], Some(EPERM))
    ensures Listen(Threads, false, [Accepted(5, 0, EAGAIN, 0), Accepted(6, 0, 0, 0)]) == Listened([6], None)
  {
  }

  /** Every descriptor in `fds` is greater than `floor`. */
  predicate AllAbove(fds: seq<int>, floor: int) {
    forall i :: 0 <= i < |fds| ==> fds[i] > floor
  }

  /** Every descriptor the THREADS build hands to a thread is positive. */
  lemma {:induction false} ThreadsServePositive(corrected: bool, results: seq<Accepted>)
    ensures AllAbove(Listen(Threads, corrected, results).served, 0)
    decreases |results|
  {
    if results != [] {
      ThreadsServePositive(corrected, results[1..]);
      var rest := Listen(Threads, corrected, results[1..]);
      var r := Listen(Threads, corrected, results);
      var d := Turn(Threads, corrected, results[0]);
      if d.Serve? {
        assert r.served == [d.incoming] + rest.served;
        forall i | 0 <= i < |r.served|
          ensures r.served[i] > 0
        {
          if i > 0 {
            assert r.served[i] == rest.served[i - 1];
          }
        }
      }
    }
  }

  /** No build hands an error result on: as written the SELECT relay exits
      on it, and the correction skips it. */
  lemma {:induction false} ServedValid(build: Build, corrected: bool, results: seq<Accepted>)
    ensures AllAbove(Listen(build, corrected, results).served, -1)
    decreases |results|
  {
    if results != [] {
      ServedValid(build, corrected, results[1..]);
      var rest := Listen(build, corrected, results[1..]);
      var r := Listen(build, corrected, results);
      var d := Turn(build, corrected, results[0]);
      if d.Serve? {
        assert r.served == [d.incoming] + rest.served;
        forall i | 0 <= i < |r.served|
          ensures r.served[i] > -1
        {
          if i > 0 {
            assert r.served[i] == rest.served[i - 1];
          }
        }
      }
    }
  }

  /** As written, a connection reset ends the SELECT server before the next
      connection is reached; with the correction that connection is served. */
  lemma SelectErrorExits()
    ensures Listen(Select, false, [Accepted(-1, ECONNRESET, 0, 0), Accepted(7, 0, 0, 0)])
      == Listened([], Some(EXIT_FAILURE))
    ensures Listen(Select, true, [Accepted(-1, ECONNRESET, 0, 0), Accepted(7, 0, 0, 0)])
      == Listened([7], None)
  {
  }
}

=== FILE: aio.dfy ===
/** `copy(struct conn_t*)` of the AIO build (main.c 252-339): one
    non-blocking step of a session's state machine, run once per acceptor
    tick. A session owns two sockets and one control block; the control
    block's descriptor (`aio_fildes`) is the socket the pending operation
    targets, and `write` records whether that operation is a write.

    The kernel calls are not performed: an `Observation` says what each of
    them returned during the step. */
module Aio {
  import opened Base

  /** The fields of `struct conn_t` and its `aiocb` that the step reads or
      assigns: the two sockets, the `write` flag, the target descriptor and
      the requested length. */
  datatype Session = Session(incoming: int, final: int, write: bool, fildes: int, nbytes: nat)

  /** The pending operation targets one of the session's own two sockets,
      and those are distinct. */
  predicate Valid(s: Session) {
    s.incoming != s.final && (s.fildes == s.incoming || s.fildes == s.final)
  }

  /** The session of a freshly accepted connection (lines 518-529): a zeroed
      control block aimed at the incoming socket, nothing submitted yet, and
      `write` set so that its first step starts a read. */
  function Accepted(incoming: int, final: int): (s: Session)
    ensures incoming != final ==> Valid(s)
    ensures s.write && s.fildes == incoming && s.nbytes == BLOCK
  {
    Session(incoming, final, true, incoming, BLOCK)
  }

  /** What the kernel reported during one step:
      - `writable`: `select` on the final socket's write readiness (line 258);
      - `status`, `returned`: `aio_error` and `aio_return` of the control block;
      - `readable`, `finalReady`, `incomingReady`: `select` on read
        readiness of both sockets (line 287) and which of them it marked;
      - `submitted`: what `aio_read` or `aio_write` returned. */
  datatype Observation = Observation(
    writable: int,
    status: int,
    returned: int,
    readable: int,
    finalReady: bool,
    incomingReady: bool,
    submitted: int)

  /** `EXIT_SUCCESS` or `EXIT_FAILURE` from `copy`. */
  datatype Verdict = Success | Failure

  /** The verdict, the session afterwards, and what was added to `total_data`. */
  datatype Stepped = Stepped(verdict: Verdict, next: Session, added: int)

  /** The other socket of the pair; a descriptor that is neither is kept. */
  function Swap(s: Session): int {
    if s.fildes == s.incoming then s.final
    else if s.fildes == s.final then s.incoming
    else s.fildes
  }

  /** The socket a new read is aimed at: `sock_incoming` if it is ready
      (tested last, so it wins), else `sock_final` if that is, else the
      previous target. */
  function ReadTarget(s: Session, o: Observation): int {
    if o.incomingReady then s.incoming
    else if o.finalReady then s.final
    else s.fildes
  }

  /** Whether the pending operation has finished (successfully or not). */
  predicate Completed(o: Observation) {
    o.status != EINPROGRESS
  }

  /** A finished operation that the step treats as failed: both an error
      status and a negative return value. */
  predicate Errored(o: Observation) {
    o.status != 0 && o.returned < 0
  }

  function Step(s: Session, o: Observation): (r: Stepped)
    ensures Valid(s) ==> Valid(r.next)
    ensures r.next.incoming == s.incoming && r.next.final == s.final
    // The write-readiness wait comes first: a result of 0 fails the session
    // whatever the operation's state.
    ensures o.writable == 0 ==> r == Stepped(Failure, s, 0)
    // Still in progress: nothing changes.
    ensures o.writable != 0 && !Completed(o) ==> r == Stepped(Success, s, 0)
    // Finished with an error.
    ensures o.writable != 0 && Completed(o) && Errored(o) ==> r == Stepped(Failure, s, 0)
    // Only a completed read adds to the counter, and it adds what it read.
    ensures r.added != 0 ==> !s.write && Completed(o) && r.added == o.returned
    // A successful step that saw a completion flips the phase.
    ensures r.verdict == Success && o.writable != 0 && Completed(o) ==> r.next.write == !s.write
    ensures r.verdict == Success && !(o.writable != 0 && Completed(o)) ==> r.next == s
  {
    if o.writable == 0 then Stepped(Failure, s, 0)
    else if o.status == EINPROGRESS then Stepped(Success, s, 0)
    else if o.status != 0 && o.returned < 0 then Stepped(Failure, s, 0)
    else if s.write then
      // Lines 276-304: the write is done; read from whichever socket is ready.
      if o.readable == 0 then Stepped(Failure, s, 0)
      else
        var s' := s.(fildes := ReadTarget(s, o), nbytes := BLOCK);
        if o.submitted != 0 then Stepped(Failure, s', 0)
        else Stepped(Success, s'.(write := false), 0)
    else
      // Lines 313-333: the read is done; write what it read to the other socket.
      if o.returned == 0 then Stepped(Failure, s, 0)
      else
        var s' := s.(fildes := Swap(s), nbytes := ToU64(o.returned));
        if o.submitted != 0 then Stepped(Failure, s', o.returned)
        else Stepped(Success, s'.(write := true), o.returned)
  }

  /** After a completed read: a read of 0 bytes fails the session; otherwise
      the write goes to the other socket of the pair, asks for exactly the
      bytes read, and the count is added to `total_data` as the write is
      submitted (even when the submission then fails). */
  lemma AfterRead(s: Session, o: Observation)
    requires Valid(s) && !s.write
    requires o.writable != 0 && Completed(o) && !Errored(o)
    ensures var r := Step(s, o);
      && (o.returned == 0 ==> r.verdict == Failure && r.added == 0)
      && (o.returned != 0 ==>
            && r.next.fildes != s.fildes
            && (r.next.fildes == s.incoming || r.next.fildes == s.final)
            && r.next.nbytes == ToU64(o.returned)
            && r.added == o.returned
            && (r.verdict == Success <==> o.submitted == 0)
            && (r.verdict == Success ==> r.next.write))
  {
  }

  /** After a completed write: no readable socket fails the session;
      otherwise a read of `BLOCK` bytes is aimed at a ready socket,
      `sock_incoming` when both are, and nothing is counted. */
  lemma AfterWrite(s: Session, o: Observation)
    requires Valid(s) && s.write
    requires o.writable != 0 && Completed(o) && !Errored(o)
    ensures var r := Step(s, o);
      && r.added == 0
      && (o.readable == 0 ==> r.verdict == Failure)
      && (o.readable != 0 ==>
            && r.next.nbytes == BLOCK
            && (o.incomingReady ==> r.next.fildes == s.incoming)
            && (o.finalReady && !o.incomingReady ==> r.next.fildes == s.final)
            && (r.verdict == Success <==> o.submitted == 0)
            && (r.verdict == Success ==> !r.next.write))
  {
  }

  /** A completed operation counts as failed only when `aio_error` is
      non-zero and `aio_return` negative: an error status with a
      non-negative return value carries on as if it had succeeded. */
  lemma ErrorNeedsBoth(s: Session, o: Observation)
    requires o.writable != 0 && Completed(o)
    requires o.status != 0 && o.returned >= 0
    requires s.write && o.readable != 0 && o.submitted == 0
    ensures Step(s, o).verdict == Success
  {
  }

  /** `select` returning -1 passes both readiness tests (only 0 is checked). */
  lemma SelectErrorPasses(s: Session, o: Observation)
    requires Valid(s) && s.write
    requires o.writable == -1 && o.readable == -1
    requires Completed(o) && !Errored(o) && o.submitted == 0
    ensures Step(s, o).verdict == Success
  {
  }

  /** The first step of a new session. Its control block was never
      submitted, so `aio_error` and `aio_return` read the zeroed fields (0
      and 0) and the step acts as if a write had just finished: it aims a
      read at a ready socket. */
  lemma FirstStep(incoming: int, final: int, o: Observation)
    requires incoming != final
    requires o.status == 0 && o.returned == 0
    requires o.writable != 0 && o.readable != 0 && o.submitted == 0
    ensures var r := Step(Accepted(incoming, final), o);
      && r.verdict == Success && r.added == 0
      && !r.next.write && r.next.nbytes == BLOCK
      && (o.incomingReady || !o.finalReady ==> r.next.fildes == incoming)
      && (o.finalReady && !o.incomingReady ==> r.next.fildes == final)
  {
  }

  /** One full relay cycle from a finished write: the read is aimed at the
      ready socket, and once it completes with `n` bytes those bytes are
      written to the other socket of the pair and counted once. */
  lemma ReadThenWrite(s: Session, o1: Observation, o2: Observation)
    requires Valid(s) && s.write
    requires o1.writable != 0 && Completed(o1) && !Errored(o1)
    requires o1.readable != 0 && o1.submitted == 0
    requires o2.writable != 0 && Completed(o2) && !Errored(o2)
    requires o2.returned != 0 && o2.submitted == 0
    ensures var r1 := Step(s, o1);
      var r2 := Step(r1.next, o2);
      && r1.verdict == Success && r2.verdict == Success
      && r1.added + r2.added == o2.returned
      && r2.next.write
      && r2.next.fildes != r1.next.fildes
      && (o1.incomingReady ==> r2.next.fildes == s.final)
      && (o1.finalReady && !o1.incomingReady ==> r2.next.fildes == s.incoming)
      && r2.next.nbytes == ToU64(o2.returned)
  {
    AfterWrite(s, o1);
    AfterRead(Step(s, o1).next, o2);
  }

  // ---------------------------------------------------------------------
  // A session driven over many ticks.

  /** The session after stepping through `obs` until a step fails: the
      verdict of the last step, the session, the bytes counted, and the
      number of steps taken. */
  datatype Run = Run(verdict: Verdict, last: Session, added: int, steps: nat)

  function Drive(s: Session, obs: seq<Observation>): (r: Run)
    decreases |obs|
  {
    if obs == [] then Run(Success, s, 0, 0)
    else
      var st := Step(s, obs[0]);
      if st.verdict == Failure then Run(Failure, st.next, st.added, 1)
      else
        var rest := Drive(st.next, obs[1..]);
        Run(rest.verdict, rest.last, st.added + rest.added, rest.steps + 1)
  }

  /** Over any number of ticks the session keeps its two sockets and its
      target stays one of them. `DriveStopsAtFailure` says where a failing
      run stops. */
  lemma {:induction false} DriveKeepsSockets(s: Session, obs: seq<Observation>)
    requires Valid(s)
    ensures var r := Drive(s, obs);
      && Valid(r.last)
      && r.last.incoming == s.incoming && r.last.final == s.final
      && r.steps <= |obs|
      && (r.verdict == Success ==> r.steps == |obs|)
    decreases |obs|
  {
    if obs != [] {
      var st := Step(s, obs[0]);
      if st.verdict == Success {
        DriveKeepsSockets(st.next, obs[1..]);
      }
    }
  }

  /** A run that fails stops at its first failing step: every step before
      it succeeded, and the step it stopped at is the one that failed. */
  lemma {:induction false} DriveStopsAtFailure(s: Session, obs: seq<Observation>)
    ensures var r := Drive(s, obs);
      r.verdict == Failure ==>
        && 1 <= r.steps <= |obs|
        && Drive(s, obs[..r.steps - 1]).verdict == Success
        && Drive(s, obs[..r.steps - 1]).steps == r.steps - 1
        && Step(Drive(s, obs[..r.steps - 1]).last, obs[r.steps - 1]).verdict == Failure
    decreases |obs|
  {
    if obs != [] {
      var st := Step(s, obs[0]);
      if st.verdict == Success {
        var rest := Drive(st.next, obs[1..]);
        DriveStopsAtFailure(st.next, obs[1..]);
        if rest.verdict == Failure {
          var m := rest.steps;
          assert obs[..m][0] == obs[0];
          assert obs[..m][1..] == obs[1..][..m - 1];
          assert obs[m] == obs[1..][m - 1];
        }
      } else {
        assert obs[..0] == [];
      }
    }
  }
}

=== FILE: args.dfy ===
/** The command-line check at the top of `main`: `redir [-d] <port1> <host>:<port2>`.
    The first port is read with `atoi` (decimal only), the target with
    `sscanf("%[^:]:%i")`, whose `%i` picks its base from the prefix. The
    globals `port_to` and `host_to` start out zero, so a conversion that does
    not happen leaves a value the range check then rejects. */
module Args {
  import opened Base

  datatype Config = Config(portFrom: int, host: string, portTo: int, daemonize: bool)

  /** What `main` does with its arguments: print usage and return `status`,
      or carry on with a configuration. */
  datatype Launch = Usage(status: int) | Start(config: Config)

  const INT_MIN: int := -0x8000_0000
  const INT_MAX: int := 0x7fff_ffff

  /** `host_to` is `char[128]`: room for 127 characters and the terminator. */
  const HOST_CAPACITY: nat := 127

  /** `isspace` in the C locale: space, \t, \n, \v, \f, \r. */
  predicate IsSpace(c: char) {
    c == ' ' || 9 <= c as int <= 13
  }

  /** Value of `c` as a digit of any base up to 16; 16 when it is none. */
  function DigitValue(c: char): (d: nat)
    ensures d <= 16
  {
    if '0' <= c <= '9' then (c as int) - ('0' as int)
    else if 'a' <= c <= 'f' then (c as int) - ('a' as int) + 10
    else if 'A' <= c <= 'F' then (c as int) - ('A' as int) + 10
    else 16
  }

  predicate IsDigit(c: char, base: nat) {
    DigitValue(c) < base
  }

  /** The number of leading characters of `s` that are digits in `base`. */
  function DigitRun(s: string, base: nat): (n: nat)
    ensures n <= |s|
    ensures forall i :: 0 <= i < n ==> IsDigit(s[i], base)
    ensures n < |s| ==> !IsDigit(s[n], base)
  {
    if s == [] || !IsDigit(s[0], base) then 0 else 1 + DigitRun(s[1..], base)
  }

  /** The number a string of digits denotes in `base`, most significant first. */
  function ValueOf(ds: string, base: nat): nat {
    if ds == [] then 0
    else ValueOf(ds[..|ds| - 1], base) * base + DigitValue(ds[|ds| - 1])
  }

  /** `s` without its leading white space. */
  function SkipSpace(s: string): (t: string)
    ensures |t| <= |s| && t == s[|s| - |t|..]
    ensures t == [] || !IsSpace(t[0])
  {
    if s != [] && IsSpace(s[0]) then SkipSpace(s[1..]) else s
  }

  /** An optional leading sign: its factor and what follows it. */
  function Sign(s: string): (int, string) {
    if s != [] && s[0] == '-' then (-1, s[1..])
    else if s != [] && s[0] == '+' then (1, s[1..])
    else (1, s)
  }

  /** `atoi`: white space, an optional sign, then as many decimal digits as
      there are; no digits reads as 0. Overflow is left to `WellDefined`. */
  function Atoi(s: string): int {
    var (sign, u) := Sign(SkipSpace(s));
    sign * ValueOf(u[..DigitRun(u, 10)], 10)
  }

  /** `%i` of `sscanf`: white space, an optional sign, then `0x`/`0X` and hex
      digits, `0` and octal digits, or decimal digits. None is a matching
      failure (no digit at all), which leaves the target variable alone.
      After `0x` with no hex digit glibc stores 0, which is what the hex
      branch yields. */
  function ScanInt(s: string): Option<int> {
    var (sign, u) := Sign(SkipSpace(s));
    if u != [] && u[0] == '0' then
      if |u| >= 2 && (u[1] == 'x' || u[1] == 'X') then
        var h := u[2..];
        Some(sign * ValueOf(h[..DigitRun(h, 16)], 16))
      else
        var o := u[1..];
        Some(sign * ValueOf(o[..DigitRun(o, 8)], 8))
    else
      var n := DigitRun(u, 10);
      if n == 0 then None else Some(sign * ValueOf(u[..n], 10))
  }

  /** Position of the first ':' in `s`, or |s| when there is none. */
  function ColonAt(s: string): (n: nat)
    ensures n <= |s|
    ensures forall i :: 0 <= i < n ==> s[i] != ':'
    ensures n < |s| ==> s[n] == ':'
  {
    if s == [] || s[0] == ':' then 0 else 1 + ColonAt(s[1..])
  }

  /** `sscanf(arg, "%[^:]:%i", host_to, &port_to)` starting from the zeroed
      globals: the (host, port) pair it leaves behind. `%[^:]` must match at
      least one character, otherwise nothing is stored. */
  function ScanTarget(arg: string): (string, int) {
    var n := ColonAt(arg);
    if n == 0 then ("", 0)
    else if n == |arg| then (arg, 0)
    else
      match ScanInt(arg[n + 1..])
      case None => (arg[..n], 0)
      case Some(v) => (arg[..n], v)
  }

  /** What `ScanTarget` leaves: a host without ':' that the argument starts
      with; a non-zero port only from a successful conversion right after
      the first colon; nothing at all from an empty host part; port 0 when
      there is no colon. */
  lemma ScanTargetSpec(arg: string)
    ensures var r := ScanTarget(arg);
      && ':' !in r.0
      && (r.1 != 0 ==> r.0 + [':'] <= arg && ScanInt(arg[|r.0| + 1..]) == Some(r.1))
      && (r.0 != [] ==> r.0 <= arg)
      && (arg == [] || arg[0] == ':' ==> r == ("", 0))
      && (':' !in arg ==> r.1 == 0)
  {
    var n := ColonAt(arg);
    ColonSplit(arg);
    if 0 < n < |arg| {
      var port := ScanInt(arg[n + 1..]);
      var r := (arg[..n], if port.Some? then port.value else 0);
      assert ScanTarget(arg) == r;
      assert |r.0| + 1 == n + 1;
    }
  }

  /** Which host and port `ScanTarget` keeps: `%[^:]` takes every character
      up to the first ':' or the end, and after the colon `%i` stores its
      value or leaves the zeroed port. */
  lemma ScanTargetFirstColon(arg: string)
    ensures var r := ScanTarget(arg);
      && r.0 <= arg && ':' !in r.0
      && (arg != [] && arg[0] != ':' ==> r.0 != [] && (|r.0| == |arg| || arg[|r.0|] == ':'))
      && (r.0 != [] && |r.0| < |arg| ==>
            r.1 == (match ScanInt(arg[|r.0| + 1..]) case Some(v) => v case None => 0))
  {
    ScanTargetSpec(arg);
    var n := ColonAt(arg);
    ColonSplit(arg);
    if 0 < n < |arg| {
      var port := ScanInt(arg[n + 1..]);
      var r := (arg[..n], if port.Some? then port.value else 0);
      assert ScanTarget(arg) == r;
      assert |r.0| + 1 == n + 1;
    }
  }

  /** The text before the first colon holds no colon; with a colon, it and
      the colon start the argument. */
  lemma {:induction false} ColonSplit(arg: string)
    ensures var n := ColonAt(arg);
      && ':' !in arg[..n]
      && (n < |arg| ==> arg[..n] + [':'] == arg[..n + 1] && ':' in arg)
      && (':' !in arg ==> n == |arg|)
  {
    var n := ColonAt(arg);
    var host := arg[..n];
    forall i | 0 <= i < |host|
      ensures host[i] != ':'
    {
      assert host[i] == arg[i];
    }
    assert ':' !in host;
    if n < |arg| {
      assert arg[n] == ':';
      assert arg[..n + 1] == host + [arg[n]];
    }
  }

  /** argc is 3, or 4 with `argv[1]` exactly "-d". */
  predicate Shaped(argv: seq<string>) {
    |argv| == 3 || (|argv| == 4 && argv[1] == "-d")
  }

  function PortArg(argv: seq<string>): string
    requires Shaped(argv)
  {
    if |argv| == 3 then argv[1] else argv[2]
  }

  function TargetArg(argv: seq<string>): string
    requires Shaped(argv)
  {
    if |argv| == 3 then argv[2] else argv[3]
  }

  /** The conditions under which the C code has defined behaviour: C strings
      carry no NUL, `atoi` and `%i` do not overflow an `int`, and the host
      part fits `host_to`. */
  predicate WellDefined(argv: seq<string>) {
    && (forall i :: 0 <= i < |argv| ==> '\0' !in argv[i])
    && (Shaped(argv) ==>
          && INT_MIN <= Atoi(PortArg(argv)) <= INT_MAX
          && |ScanTarget(TargetArg(argv)).0| <= HOST_CAPACITY
          && INT_MIN <= ScanTarget(TargetArg(argv)).1 <= INT_MAX)
  }

  predicate ValidPort(p: int) {
    0 < p < 65535
  }

  /** `main` lines 369-390: shape check, conversion, range check. */
  function ParseArgs(argv: seq<string>): (r: Launch)
    requires WellDefined(argv)
    ensures r.Usage? ==> r.status == EXIT_SUCCESS
    ensures !Shaped(argv) ==> r.Usage?
    ensures r.Start? ==> Shaped(argv) && (r.config.daemonize <==> |argv| == 4)
    ensures r.Start? ==>
              && 1 <= r.config.portFrom <= 65534
              && 1 <= r.config.portTo <= 65534
              && 1 <= |r.config.host| <= HOST_CAPACITY
              && ':' !in r.config.host
              && r.config.portFrom == Atoi(PortArg(argv))
              && r.config.host + [':'] <= TargetArg(argv)
  {
    var argc := |argv|;
    if argc > 4 || (argc == 4 && argv[1] != "-d") || argc < 3 then Usage(EXIT_SUCCESS)
    else
      var portFrom := Atoi(PortArg(argv));
      var scanned := ScanTarget(TargetArg(argv));
      ScanTargetSpec(TargetArg(argv));
      var host := scanned.0;
      var portTo := scanned.1;
      if !ValidPort(portFrom) || !ValidPort(portTo) || |host| == 0 then Usage(EXIT_SUCCESS)
      else Start(Config(portFrom, host, portTo, argc == 4))
  }

  /** A shaped argument list is accepted exactly when both ports are in
      1..65534 and the host part is non-empty. */
  lemma AcceptedExactly(argv: seq<string>)
    requires WellDefined(argv) && Shaped(argv)
    ensures ParseArgs(argv).Start? <==>
              && 1 <= Atoi(PortArg(argv)) <= 65534
              && 1 <= ScanTarget(TargetArg(argv)).1 <= 65534
              && ScanTarget(TargetArg(argv)).0 != []
  {
    var p := Atoi(PortArg(argv));
    var scanned := ScanTarget(TargetArg(argv));
    if ValidPort(p) && ValidPort(scanned.1) && scanned.0 != [] {
      assert ParseArgs(argv) == Start(Config(p, scanned.0, scanned.1, |argv| == 4));
    } else {
      assert ParseArgs(argv) == Usage(EXIT_SUCCESS);
    }
  }

  // ---------------------------------------------------------------------
  // Rendering a configuration back to arguments, and the round trip.

  /** The digit character for `d` (lower-case hex letters). */
  function DigitChar(d: nat): char
    requires d < 16
  {
    if d < 10 then ('0' as int + d) as char else ('a' as int + d - 10) as char
  }

  /** `n` written in `base` without leading zeros. */
  function Digits(n: nat, base: nat): (s: string)
    requires 2 <= base <= 16 && n >= 1
    decreases n
  {
    if n < base then [DigitChar(n)]
    else
      Split(n, base);
      Digits(n / base, base) + [DigitChar(n % base)]
  }

  /** The three ways `%i` lets a port be written. */
  datatype Radix = Octal | Decimal | Hex

  function PortText(p: nat, radix: Radix): string
    requires p >= 1
  {
    match radix
    case Decimal => Digits(p, 10)
    case Octal => "0" + Digits(p, 8)
    case Hex => "0x" + Digits(p, 16)
  }

  /** A configuration the check accepts and that can be written as arguments. */
  predicate Renderable(c: Config) {
    && 1 <= c.portFrom <= 65534
    && 1 <= c.portTo <= 65534
    && 1 <= |c.host| <= HOST_CAPACITY
    && ':' !in c.host
    && '\0' !in c.host
  }

  function Render(c: Config, radix: Radix): seq<string>
    requires Renderable(c)
  {
    var target := c.host + ":" + PortText(c.portTo, radix);
    if c.daemonize then ["redir", "-d", Digits(c.portFrom, 10), target]
    else ["redir", Digits(c.portFrom, 10), target]
  }

  lemma DigitCharValue(d: nat)
    requires d < 16
    ensures DigitValue(DigitChar(d)) == d
    ensures DigitChar(d) != '\0' && DigitChar(d) != ':'
    ensures d != 0 ==> DigitChar(d) != '0'
  {
  }

  /** Quotient and remainder of `n` by `base` when `n >= base`. */
  lemma Split(n: nat, base: nat)
    requires 2 <= base <= 16 && n >= base
    ensures 1 <= n / base < n && n % base < base
    ensures n == (n / base) * base + n % base
  {
  }

  lemma {:induction false} DigitsAreDigits(n: nat, base: nat)
    requires 2 <= base <= 16 && n >= 1
    ensures forall i :: 0 <= i < |Digits(n, base)| ==> IsDigit(Digits(n, base)[i], base)
    ensures Digits(n, base)[0] != '0'
    ensures '\0' !in Digits(n, base) && ':' !in Digits(n, base)
    decreases n
  {
    if n < base {
      DigitCharValue(n);
    } else {
      Split(n, base);
      DigitsAreDigits(n / base, base);
      DigitCharValue(n % base);
      var s := Digits(n / base, base);
      var t := s + [DigitChar(n % base)];
      assert Digits(n, base) == t;
      forall i | 0 <= i < |t|
        ensures IsDigit(t[i], base)
      {
        if i < |s| {
          assert t[i] == s[i];
        }
      }
    }
  }

  lemma {:induction false} DigitsValue(n: nat, base: nat)
    requires 2 <= base <= 16 && n >= 1
    ensures ValueOf(Digits(n, base), base) == n
    decreases n
  {
    if n < base {
      DigitCharValue(n);
      var s := Digits(n, base);
      assert s[..|s| - 1] == [];
    } else {
      Split(n, base);
      DigitsValue(n / base, base);
      DigitCharValue(n % base);
      var s := Digits(n / base, base);
      var t := s + [DigitChar(n % base)];
      assert Digits(n, base) == t;
      assert t[..|t| - 1] == s;
      assert ValueOf(t, base) == ValueOf(s, base) * base + n % base;
    }
  }

  /** A string that is all digits is read in full. */
  lemma {:induction false} RunOfDigits(s: string, base: nat)
    requires forall i :: 0 <= i < |s| ==> IsDigit(s[i], base)
    ensures DigitRun(s, base) == |s|
  {
    if s != [] {
      RunOfDigits(s[1..], base);
    }
  }

  /** `n` in `base`, read back by `atoi`/`%i`'s digit loop, gives `n`. */
  lemma ReadDigits(n: nat, base: nat)
    requires 2 <= base <= 16 && n >= 1
    ensures var s := Digits(n, base);
      DigitRun(s, base) == |s| && ValueOf(s[..DigitRun(s, base)], base) == n
  {
    DigitsAreDigits(n, base);
    RunOfDigits(Digits(n, base), base);
    DigitsValue(n, base);
    var s := Digits(n, base);
    assert s[..|s|] == s;
  }

  /** A string that starts with a digit has no white space or sign to skip. */
  lemma StartsWithDigit(s: string)
    requires s != [] && IsDigit(s[0], 16)
    ensures SkipSpace(s) == s && Sign(s) == (1, s)
  {
    assert !IsSpace(s[0]) && s[0] != '-' && s[0] != '+' by {
      assert DigitValue(s[0]) < 16;
    }
  }

  lemma AtoiDigits(n: nat)
    requires n >= 1
    ensures Atoi(Digits(n, 10)) == n
  {
    var s := Digits(n, 10);
    DigitsAreDigits(n, 10);
    StartsWithDigit(s);
    ReadDigits(n, 10);
  }

  lemma ScanDecimal(p: nat)
    requires p >= 1
    ensures ScanInt(PortText(p, Decimal)) == Some(p)
  {
    var t := PortText(p, Decimal);
    DigitsAreDigits(p, 10);
    StartsWithDigit(t);
    ReadDigits(p, 10);
    assert t[0] != '0';
  }

  lemma ScanOctal(p: nat)
    requires p >= 1
    ensures ScanInt(PortText(p, Octal)) == Some(p)
  {
    var t := PortText(p, Octal);
    var d := Digits(p, 8);
    DigitsAreDigits(p, 8);
    StartsWithDigit(t);
    ReadDigits(p, 8);
    assert t[0] == '0' && t[1..] == d;
    assert t[1] != 'x' && t[1] != 'X';
  }

  lemma ScanHex(p: nat)
    requires p >= 1
    ensures ScanInt(PortText(p, Hex)) == Some(p)
  {
    var t := PortText(p, Hex);
    DigitsAreDigits(p, 16);
    StartsWithDigit(t);
    ReadDigits(p, 16);
    assert t[0] == '0' && t[1] == 'x' && t[2..] == Digits(p, 16);
  }

  lemma ScanPort(p: nat, radix: Radix)
    requires p >= 1
    ensures ScanInt(PortText(p, radix)) == Some(p)
  {
    match radix
    case Decimal => ScanDecimal(p);
    case Octal => ScanOctal(p);
    case Hex => ScanHex(p);
  }

  // ---------------------------------------------------------------------
  // How `atoi` and `%i` read their text.

  /** Both conversions skip leading white space. */
  lemma LeadingSpaceSkipped(s: string)
    requires s != [] && IsSpace(s[0])
    ensures Atoi(s) == Atoi(s[1..]) && ScanInt(s) == ScanInt(s[1..])
  {
  }

  /** A minus sign right before the digits negates what both conversions
      read; `%i` always reads something from text that starts with a digit. */
  lemma MinusNegates(t: string)
    requires t != [] && IsDigit(t[0], 10)
    ensures Atoi("-" + t) == -Atoi(t)
    ensures ScanInt(t).Some? && ScanInt("-" + t) == Some(-ScanInt(t).value)
  {
    StartsWithDigit(t);
    var m := "-" + t;
    assert m[0] == '-' && m[1..] == t;
    assert SkipSpace(m) == m;
  }

  /** Where the number does not start with `0`, `%i` reads decimal digits
      exactly as `atoi` does, and fails where `atoi` finds no digit and
      yields 0. */
  lemma DecimalAgrees(s: string)
    ensures var u := Sign(SkipSpace(s)).1;
      (u == [] || u[0] != '0') ==>
        && ScanInt(s) == (if u != [] && IsDigit(u[0], 10) then Some(Atoi(s)) else None)
        && (ScanInt(s).None? ==> Atoi(s) == 0)
  {
    var u := Sign(SkipSpace(s)).1;
    if u != [] && IsDigit(u[0], 10) {
      assert DigitRun(u, 10) > 0;
    } else {
      assert u[..DigitRun(u, 10)] == [];
    }
  }

  /** `atoi` on text that starts with a decimal digit. */
  lemma AtoiDigitLed(s: string)
    requires s != [] && IsDigit(s[0], 10)
    ensures Atoi(s) == ValueOf(s[..DigitRun(s, 10)], 10)
  {
    StartsWithDigit(s);
  }

  /** `%i` on text that starts with `0`: hex after `0x`, otherwise octal. */
  lemma ZeroLed(s: string)
    requires s != [] && s[0] == '0'
    ensures s[0] == '0' && |s| >= 2 && (s[1] == 'x' || s[1] == 'X') ==>
      ScanInt(s) == Some(ValueOf(s[2..][..DigitRun(s[2..], 16)], 16))
    ensures s[0] == '0' && !(|s| >= 2 && (s[1] == 'x' || s[1] == 'X')) ==>
      ScanInt(s) == Some(ValueOf(s[1..][..DigitRun(s[1..], 8)], 8))
  {
    StartsWithDigit(s);
  }

  /** The last digit's share of a value. */
  lemma ValueStep(ds: string, c: char, base: nat)
    ensures ValueOf(ds + [c], base) == ValueOf(ds, base) * base + DigitValue(c)
  {
    assert (ds + [c])[..|ds|] == ds;
  }

  /** A leading zero changes no value. */
  lemma {:induction false} ZeroLedValue(d: string, base: nat)
    ensures ValueOf(['0'] + d, base) == ValueOf(d, base)
    decreases |d|
  {
    if d == [] {
      ValueStep([], '0', base);
    } else {
      var d' := d[..|d| - 1];
      assert ['0'] + d == (['0'] + d') + [d[|d| - 1]];
      assert d == d' + [d[|d| - 1]];
      ValueStep(['0'] + d', d[|d| - 1], base);
      ValueStep(d', d[|d| - 1], base);
      ZeroLedValue(d', base);
    }
  }

  /** `atoi` reads a `0` followed by decimal digits as those digits. */
  lemma AtoiZeroLed(d: string)
    requires forall i :: 0 <= i < |d| ==> IsDigit(d[i], 10)
    ensures Atoi(['0'] + d) == ValueOf(d, 10)
  {
    var t := ['0'] + d;
    assert forall i :: 0 <= i < |t| ==> IsDigit(t[i], 10) by {
      forall i | 0 <= i < |t| ensures IsDigit(t[i], 10) {
        if i > 0 { assert t[i] == d[i - 1]; }
      }
    }
    RunOfDigits(t, 10);
    AtoiDigitLed(t);
    assert t[..|t|] == t;
    ZeroLedValue(d, 10);
  }

  /** A port written in octal with its leading `0`: `%i` reads the port,
      `atoi` reads the same digits as a decimal number. */
  lemma OctalReadByAtoi(p: nat)
    requires p >= 1
    ensures var t := PortText(p, Octal);
      ScanInt(t) == Some(p) && Atoi(t) == ValueOf(Digits(p, 8), 10)
  {
    var d := Digits(p, 8);
    ScanOctal(p);
    DigitsAreDigits(p, 8);
    assert forall i :: 0 <= i < |d| ==> IsDigit(d[i], 10) by {
      forall i | 0 <= i < |d| ensures IsDigit(d[i], 10) {
        assert IsDigit(d[i], 8);
      }
    }
    AtoiZeroLed(d);
    assert PortText(p, Octal) == ['0'] + d;
  }

  /** `atoi` stops at the `x` of a `0x` prefix and reads 0. */
  lemma AtoiHexPrefix(t: string)
    requires |t| >= 2 && t[0] == '0' && (t[1] == 'x' || t[1] == 'X')
    ensures Atoi(t) == 0
  {
    AtoiDigitLed(t);
    assert DigitRun(t, 10) == 1 by {
      assert IsDigit(t[0], 10) && !IsDigit(t[1], 10);
    }
    assert t[..1] == [] + ['0'];
    ValueStep([], '0', 10);
  }

  /** A port written in hex: `%i` reads the port, `atoi` stops at the `x`
      and reads 0. */
  lemma HexReadByAtoi(p: nat)
    requires p >= 1
    ensures var t := PortText(p, Hex);
      ScanInt(t) == Some(p) && Atoi(t) == 0
  {
    var t := PortText(p, Hex);
    ScanHex(p);
    assert t[0] == '0' && t[1] == 'x';
    AtoiHexPrefix(t);
  }

  /** `0x` with no hex digit after it: glibc stores 0. */
  lemma BareHexExample()
    ensures ScanInt("0x") == Some(0)
  {
    var s := "0x";
    ZeroLed(s);
    assert s[2..] == [];
  }

  /** Text without a digit: `atoi` reads 0, `%i` fails. */
  lemma NoDigitExample()
    ensures Atoi("port") == 0 && ScanInt("port") == None
  {
    var s := "port";
    assert !IsSpace(s[0]) && s[0] != '-' && s[0] != '+';
    assert SkipSpace(s) == s && Sign(s) == (1, s);
    assert !IsDigit(s[0], 10);
    assert s[..0] == [];
  }

  lemma ScanRendered(host: string, p: nat, radix: Radix)
    requires p >= 1 && host != [] && ':' !in host
    ensures ScanTarget(host + ":" + PortText(p, radix)) == (host, p)
  {
    var arg := host + ":" + PortText(p, radix);
    var n := ColonAt(arg);
    assert arg[|host|] == ':';
    assert forall i :: 0 <= i < |host| ==> arg[i] == host[i];
    assert n == |host|;
    assert arg[..n] == host;
    assert arg[n + 1..] == PortText(p, radix);
    ScanPort(p, radix);
  }

  lemma RenderShape(c: Config, radix: Radix)
    requires Renderable(c)
    ensures var argv := Render(c, radix);
      && Shaped(argv)
      && (|argv| == 4 <==> c.daemonize)
      && PortArg(argv) == Digits(c.portFrom, 10)
      && TargetArg(argv) == c.host + ":" + PortText(c.portTo, radix)
      && (forall i :: 0 <= i < |argv| ==> '\0' !in argv[i])
  {
    var argv := Render(c, radix);
    DigitsAreDigits(c.portFrom, 10);
    var pt := PortText(c.portTo, radix);
    assert '\0' !in pt by {
      match radix
      case Decimal => DigitsAreDigits(c.portTo, 10);
      case Octal => DigitsAreDigits(c.portTo, 8);
      case Hex => DigitsAreDigits(c.portTo, 16);
    }
    assert '\0' !in c.host + ":" + pt;
    assert '\0' !in "redir" && '\0' !in "-d";
  }

  /** A shaped argument list whose conversions give valid ports and a
      non-empty host starts with exactly those values. */
  lemma ParseShaped(argv: seq<string>, c: Config)
    requires WellDefined(argv) && Shaped(argv)
    requires Atoi(PortArg(argv)) == c.portFrom && ScanTarget(TargetArg(argv)) == (c.host, c.portTo)
    requires ValidPort(c.portFrom) && ValidPort(c.portTo) && c.host != []
    requires c.daemonize <==> |argv| == 4
    ensures ParseArgs(argv) == Start(c)
  {
  }

  /** The rendered arguments have defined behaviour and convert back to
      the configuration's ports and host. */
  lemma RenderConverts(c: Config, radix: Radix)
    requires Renderable(c)
    ensures var argv := Render(c, radix);
      && Shaped(argv)
      && WellDefined(argv)
      && Atoi(PortArg(argv)) == c.portFrom
      && ScanTarget(TargetArg(argv)) == (c.host, c.portTo)
      && (c.daemonize <==> |argv| == 4)
  {
    RenderShape(c, radix);
    AtoiDigits(c.portFrom);
    ScanRendered(c.host, c.portTo, radix);
  }

  /** Round trip: every configuration the check accepts, written out on a
      command line in any of the three port notations, parses back to
      itself. */
  lemma {:induction false} ParseRender(c: Config, radix: Radix)
    requires Renderable(c)
    ensures WellDefined(Render(c, radix))
    ensures ParseArgs(Render(c, radix)) == Start(c)
  {
    RenderConverts(c, radix);
    ParseShaped(Render(c, radix), c);
  }

  /** The usage line in main.c's header comment. */
  lemma UsageExample()
    ensures var argv := ["redir", "2020", "proxy.nsu.ru:8888"];
      WellDefined(argv) && ParseArgs(argv) == Start(Config(2020, "proxy.nsu.ru", 8888, false))
  {
    var c := Config(2020, "proxy.nsu.ru", 8888, false);
    ExampleRendered();
    ParseRender(c, Decimal);
  }

  lemma ExampleRendered()
    ensures var c := Config(2020, "proxy.nsu.ru", 8888, false);
      Renderable(c) && Render(c, Decimal) == ["redir", "2020", "proxy.nsu.ru:8888"]
  {
    var c := Config(2020, "proxy.nsu.ru", 8888, false);
    ExampleDigits();
    assert Renderable(c);
    assert c.host + ":" + Digits(8888, 10) == "proxy.nsu.ru:8888";
  }

  lemma ExampleDigits()
    ensures Digits(2020, 10) == "2020" && Digits(8888, 10) == "8888"
  {
    assert DigitChar(0) == '0' && DigitChar(2) == '2' && DigitChar(8) == '8';
    assert Digits(2, 10) == "2";
    assert Digits(20, 10) == Digits(2, 10) + [DigitChar(0)];
    assert Digits(202, 10) == Digits(20, 10) + [DigitChar(2)];
    assert Digits(2020, 10) == Digits(202, 10) + [DigitChar(0)];
    assert Digits(8, 10) == "8";
    assert Digits(88, 10) == Digits(8, 10) + [DigitChar(8)];
    assert Digits(888, 10) == Digits(88, 10) + [DigitChar(8)];
    assert Digits(8888, 10) == Digits(888, 10) + [DigitChar(8)];
  }
}

=== FILE: base.dfy ===
/** Shared vocabulary of the forwarder model: an Option type, bytes, the C
    conversion to `unsigned long long`, and the Linux constants the program
    compares against. */
module Base {

  /** The conventional Some/None wrapper. */
  datatype Option<+T> = None | Some(value: T)

  /** One octet of relayed data. */
  newtype byte = x: int | 0 <= x < 256

  /** 2^64: the modulus of `unsigned long long` (the type of `total_data`). */
  const U64: nat := 0x1_0000_0000_0000_0000

  /** The C conversion of any integer to `unsigned long long`: reduction
      modulo 2^64, so that -1 becomes 2^64 - 1. */
  function ToU64(x: int): (r: nat)
    ensures r < U64
    ensures 0 <= x < U64 ==> r == x
    ensures x == -1 ==> r == U64 - 1
  {
    x % U64
  }

  /** Size of the relay buffer, `BLOCK` in main.c. */
  const BLOCK: nat := 65535

  const EXIT_SUCCESS: int := 0
  const EXIT_FAILURE: int := 1

  /** Linux errno values the program tests for. */
  const EPERM: int := 1
  const EAGAIN: int := 11
  const ECONNRESET: int := 104
  const ETIMEDOUT: int := 110
  const EHOSTUNREACH: int := 113
  const EINPROGRESS: int := 115

  /** Adding after a reduction is the same as reducing the sum. */
  lemma ModAdd(a: int, b: int)
    ensures ((a % U64) + b) % U64 == (a + b) % U64
  {
    var q := a / U64;
    assert a == q * U64 + a % U64;
    assert (a + b) == (a % U64 + b) + q * U64;
    ModMultiple(a % U64 + b, q);
  }

  lemma ModMultiple(x: int, q: int)
    ensures (x + q * U64) % U64 == x % U64
  {
    var y := x + q * U64;
    var r := x % U64;
    var d := x / U64;
    assert x == d * U64 + r;
    assert y == (d + q) * U64 + r;
  }
}

=== FILE: registry.dfy ===
/** The AIO build's list of live transfers (`trans` in main.c) and what one
    turn of the acceptor loop does to it (lines 514-567): a newly accepted
    connection is pushed at the head, then every session is stepped once,
    from the head, until one fails; that one is closed and unlinked, and
    the rest of the list waits for the next turn.

    The list is a sequence, head first. The sweep records what each step
    added to `total_data`; `Tally` applies those additions one at a time,
    reducing modulo 2^64 at each, as the C `unsigned long long` does. */
module Registry {
  import opened Base
  import Aio

  type Registry = seq<Aio.Session>

  /** The two descriptors a session owns. */
  function Sockets(s: Aio.Session): set<int> {
    {s.incoming, s.final}
  }

  /** Every descriptor owned by some session of the list. */
  function Live(reg: Registry): set<int> {
    if reg == [] then {} else Sockets(reg[0]) + Live(reg[1..])
  }

  /** Every session is well formed and no two sessions share a descriptor. */
  predicate Disjoint(reg: Registry) {
    && (forall i :: 0 <= i < |reg| ==> Aio.Valid(reg[i]))
    && (forall i, j :: 0 <= i < j < |reg| ==> Sockets(reg[i]) !! Sockets(reg[j]))
  }

  /** Lines 518-540: a positive descriptor from `accept` becomes a new session,
      paired with the freshly dialled `final` socket and pushed at the head;
      anything else (no pending connection on the non-blocking listener, or
      descriptor 0) adds nothing. */
  function Admit(reg: Registry, incoming: int, final: int): (r: Registry)
    ensures incoming > 0 ==> |r| == |reg| + 1 && r[0] == Aio.Accepted(incoming, final) && r[1..] == reg
    ensures incoming <= 0 ==> r == reg
  {
    if incoming > 0 then [Aio.Accepted(incoming, final)] + reg else reg
  }

  /** The list after the sweep, what each stepped session's step added to
      `total_data` (in stepping order), and the session that was closed, if
      any. */
  datatype Swept = Swept(registry: Registry, added: seq<int>, removed: Option<Aio.Session>)

  /** Lines 543-563. `obs[i]` is what the kernel reports to the step of the
      `i`-th session; sessions after a failure are not stepped, so their
      observations are ignored. */
  function Sweep(reg: Registry, obs: seq<Aio.Observation>): (r: Swept)
    requires |obs| == |reg|
    ensures |r.added| <= |reg|
    ensures r.removed.None? <==> |r.added| == |reg| && |r.registry| == |reg|
    ensures r.removed.Some? ==> 1 <= |r.added| && |r.registry| == |reg| - 1
    decreases |reg|
  {
    if reg == [] then Swept([], [], None)
    else
      var st := Aio.Step(reg[0], obs[0]);
      if st.verdict == Aio.Failure then Swept(reg[1..], [st.added], Some(st.next))
      else
        var rest := Sweep(reg[1..], obs[1..]);
        Swept([st.next] + rest.registry, [st.added] + rest.added, rest.removed)
  }

  /** `total_data += bytes` for each addition in turn, in `unsigned long long`. */
  function Tally(counter: int, adds: seq<int>): nat
    decreases |adds|
  {
    if adds == [] then ToU64(counter) else Tally(ToU64(counter + adds[0]), adds[1..])
  }

  /** The plain sum of the additions. */
  function Sum(adds: seq<int>): int
    decreases |adds|
  {
    if adds == [] then 0 else adds[0] + Sum(adds[1..])
  }

  /** Reducing at every `+=` gives the same `total_data` as adding everything
      and reducing once. */
  lemma {:induction false} TallySum(counter: int, adds: seq<int>)
    ensures Tally(counter, adds) == ToU64(counter + Sum(adds))
    decreases |adds|
  {
    if adds != [] {
      TallySum(ToU64(counter + adds[0]), adds[1..]);
      ModAdd(counter + adds[0], Sum(adds[1..]));
    }
  }

  /** How many sessions keep their place: those stepped, less the one removed. */
  function Kept(r: Swept): nat {
    if r.removed.Some? && |r.added| > 0 then |r.added| - 1 else |r.added|
  }

  /** A sweep whose first step succeeds is that step followed by the sweep
      of the rest. */
  lemma {:induction false} SweepCons(reg: Registry, obs: seq<Aio.Observation>)
    requires |obs| == |reg| && reg != []
    requires Aio.Step(reg[0], obs[0]).verdict == Aio.Success
    ensures Sweep(reg, obs).registry == [Aio.Step(reg[0], obs[0]).next] + Sweep(reg[1..], obs[1..]).registry
    ensures Sweep(reg, obs).added == [Aio.Step(reg[0], obs[0]).added] + Sweep(reg[1..], obs[1..]).added
    ensures Sweep(reg, obs).removed == Sweep(reg[1..], obs[1..]).removed
    ensures Kept(Sweep(reg, obs)) == Kept(Sweep(reg[1..], obs[1..])) + 1
  {
  }

  /** Sessions before the failing one are stepped successfully and kept in
      place, in order. */
  lemma {:induction false} SweepKeeps(reg: Registry, obs: seq<Aio.Observation>)
    requires |obs| == |reg|
    ensures var r := Sweep(reg, obs);
      && Kept(r) <= |r.registry|
      && forall i :: 0 <= i < Kept(r) ==>
           Aio.Step(reg[i], obs[i]).verdict == Aio.Success && r.registry[i] == Aio.Step(reg[i], obs[i]).next
    decreases |reg|
  {
    if reg != [] && Aio.Step(reg[0], obs[0]).verdict == Aio.Success {
      var st := Aio.Step(reg[0], obs[0]);
      SweepKeeps(reg[1..], obs[1..]);
      SweepCons(reg, obs);
      var rest := Sweep(reg[1..], obs[1..]);
      var r := Sweep(reg, obs);
      forall i | 0 <= i < Kept(r)
        ensures Aio.Step(reg[i], obs[i]).verdict == Aio.Success && r.registry[i] == Aio.Step(reg[i], obs[i]).next
      {
        if i > 0 {
          assert reg[i] == reg[1..][i - 1] && obs[i] == obs[1..][i - 1];
          assert r.registry[i] == rest.registry[i - 1];
        }
      }
    }
  }

  /** The session removed is the first one whose step fails, and the ones
      after it stay as they were, unstepped. */
  lemma {:induction false} SweepRemoves(reg: Registry, obs: seq<Aio.Observation>)
    requires |obs| == |reg|
    ensures var r := Sweep(reg, obs);
      var k := Kept(r);
      r.removed.Some? ==>
        && k < |reg|
        && Aio.Step(reg[k], obs[k]).verdict == Aio.Failure
        && r.removed == Some(Aio.Step(reg[k], obs[k]).next)
        && r.registry[k..] == reg[k + 1..]
    decreases |reg|
  {
    if reg != [] && Aio.Step(reg[0], obs[0]).verdict == Aio.Success {
      var st := Aio.Step(reg[0], obs[0]);
      SweepRemoves(reg[1..], obs[1..]);
      SweepCons(reg, obs);
      var rest := Sweep(reg[1..], obs[1..]);
      var r := Sweep(reg, obs);
      if r.removed.Some? {
        var k := Kept(r);
        assert reg[k] == reg[1..][k - 1] && obs[k] == obs[1..][k - 1];
        assert reg[k + 1..] == reg[1..][k..];
        assert r.registry[k..] == rest.registry[k - 1..];
      }
    }
  }

  /** Sessions before the failing one are stepped successfully and kept in
      place; the failing one is the one removed; those after it are kept
      untouched. With no failure every session is stepped and kept. */
  lemma SweepShape(reg: Registry, obs: seq<Aio.Observation>)
    requires |obs| == |reg|
    ensures var r := Sweep(reg, obs);
      var kept := Kept(r);
      && (r.removed.None? ==> kept == |reg|)
      && (forall i :: 0 <= i < kept ==>
            Aio.Step(reg[i], obs[i]).verdict == Aio.Success && r.registry[i] == Aio.Step(reg[i], obs[i]).next)
      && (r.removed.Some? ==>
            && Aio.Step(reg[kept], obs[kept]).verdict == Aio.Failure
            && r.removed == Some(Aio.Step(reg[kept], obs[kept]).next)
            && r.registry[kept..] == reg[kept + 1..])
  {
    SweepKeeps(reg, obs);
    SweepRemoves(reg, obs);
  }

  /** Each recorded addition is what that session's step added: the
      counter grows by what the stepped sessions read, and by nothing for
      the sessions the sweep did not reach. */
  lemma {:induction false} SweepCounts(reg: Registry, obs: seq<Aio.Observation>)
    requires |obs| == |reg|
    ensures var r := Sweep(reg, obs);
      forall i :: 0 <= i < |r.added| ==> r.added[i] == Aio.Step(reg[i], obs[i]).added
    decreases |reg|
  {
    if reg != [] && Aio.Step(reg[0], obs[0]).verdict == Aio.Success {
      SweepCounts(reg[1..], obs[1..]);
      SweepCons(reg, obs);
      var r := Sweep(reg, obs);
      var rest := Sweep(reg[1..], obs[1..]);
      forall i | 0 <= i < |r.added|
        ensures r.added[i] == Aio.Step(reg[i], obs[i]).added
      {
        if i > 0 {
          assert reg[i] == reg[1..][i - 1] && obs[i] == obs[1..][i - 1];
          assert r.added[i] == rest.added[i - 1];
        }
      }
    }
  }

  lemma LiveHas(reg: Registry, i: int)
    requires 0 <= i < |reg|
    ensures Sockets(reg[i]) <= Live(reg)
    decreases |reg|
  {
    if i > 0 {
      LiveHas(reg[1..], i - 1);
    }
  }

  lemma DisjointTail(reg: Registry)
    requires Disjoint(reg) && reg != []
    ensures Disjoint(reg[1..])
    ensures Sockets(reg[0]) !! Live(reg[1..])
  {
    var tail := reg[1..];
    forall i, j | 0 <= i < j < |tail|
      ensures Sockets(tail[i]) !! Sockets(tail[j])
    {
      assert tail[i] == reg[i + 1] && tail[j] == reg[j + 1];
    }
    LiveApart(reg[0], tail);
  }

  /** A session whose descriptors no session of `reg` owns is apart from `Live(reg)`. */
  lemma {:induction false} LiveApart(s: Aio.Session, reg: Registry)
    requires forall i :: 0 <= i < |reg| ==> Sockets(s) !! Sockets(reg[i])
    ensures Sockets(s) !! Live(reg)
    decreases |reg|
  {
    if reg != [] {
      forall i | 0 <= i < |reg[1..]|
        ensures Sockets(s) !! Sockets(reg[1..][i])
      {
        assert reg[1..][i] == reg[i + 1];
      }
      LiveApart(s, reg[1..]);
    }
  }

  lemma {:induction false} ConsDisjoint(s: Aio.Session, reg: Registry)
    requires Aio.Valid(s) && Disjoint(reg) && Sockets(s) !! Live(reg)
    ensures Disjoint([s] + reg)
  {
    var r := [s] + reg;
    forall i, j | 0 <= i < j < |r|
      ensures Sockets(r[i]) !! Sockets(r[j])
    {
      assert r[j] == reg[j - 1];
      if i == 0 {
        LiveHas(reg, j - 1);
      } else {
        assert r[i] == reg[i - 1];
      }
    }
    forall i | 0 <= i < |r|
      ensures Aio.Valid(r[i])
    {
      if i > 0 {
        assert r[i] == reg[i - 1];
      }
    }
  }

  /** The sweep keeps the sessions disjoint and only ever drops descriptors:
      a removed session's descriptors, which the program then shuts down and
      closes, belong to no session left in the list, and every descriptor
      still in the list was already there. */
  lemma {:induction false} SweepKeepsDisjoint(reg: Registry, obs: seq<Aio.Observation>)
    requires |obs| == |reg| && Disjoint(reg)
    ensures var r := Sweep(reg, obs);
      && Disjoint(r.registry)
      && Live(r.registry) <= Live(reg)
      && (r.removed.Some? ==> Aio.Valid(r.removed.value) && Sockets(r.removed.value) !! Live(r.registry))
      && (r.removed.Some? ==> Live(reg) == Live(r.registry) + Sockets(r.removed.value))
      && (r.removed.None? ==> Live(r.registry) == Live(reg))
    decreases |reg|
  {
    if reg != [] {
      DisjointTail(reg);
      var st := Aio.Step(reg[0], obs[0]);
      assert Sockets(st.next) == Sockets(reg[0]);
      if st.verdict == Aio.Success {
        SweepKeepsDisjoint(reg[1..], obs[1..]);
        var rest := Sweep(reg[1..], obs[1..]);
        var r := Sweep(reg, obs);
        assert r.registry == [st.next] + rest.registry;
        assert Live(r.registry) == Sockets(st.next) + Live(rest.registry) by {
          assert ([st.next] + rest.registry)[1..] == rest.registry;
        }
        ConsDisjoint(st.next, rest.registry);
      }
    }
  }

  /** The registry of a turn: admit, then sweep. */
  function Tick(reg: Registry, incoming: int, final: int, obs: seq<Aio.Observation>): (r: Swept)
    requires |obs| == |Admit(reg, incoming, final)|
    ensures incoming > 0 ==> |r.added| >= 1
  {
    Sweep(Admit(reg, incoming, final), obs)
  }

  /** The new session is stepped first, in the same turn it was accepted:
      it is at the head afterwards if that step succeeded, and is the one
      closed if it failed (the rest of the list then waits a turn). */
  lemma NewestFirst(reg: Registry, incoming: int, final: int, obs: seq<Aio.Observation>)
    requires incoming > 0 && |obs| == |reg| + 1
    ensures var r := Tick(reg, incoming, final, obs);
      var st := Aio.Step(Aio.Accepted(incoming, final), obs[0]);
      && (st.verdict == Aio.Success ==> r.registry[0] == st.next)
      && (st.verdict == Aio.Failure ==> r.removed == Some(st.next) && r.registry == reg)
  {
  }

  /** When the operating system hands out descriptors that no live session
      owns, a turn of the acceptor keeps the sessions disjoint. */
  lemma TickKeepsDisjoint(reg: Registry, incoming: int, final: int, obs: seq<Aio.Observation>)
    requires Disjoint(reg) && |obs| == |Admit(reg, incoming, final)|
    requires incoming > 0 ==> incoming != final && incoming !in Live(reg) && final !in Live(reg)
    ensures Disjoint(Tick(reg, incoming, final, obs).registry)
  {
    var adm := Admit(reg, incoming, final);
    if incoming > 0 {
      ConsDisjoint(Aio.Accepted(incoming, final), reg);
    }
    SweepKeepsDisjoint(adm, obs);
  }
}

=== FILE: relay.dfy ===
/** `copy(insock, outsock)`, the blocking relay loop of the THREADS and
    SELECT builds (main.c 183-246). Each pass waits in `select` for either
    socket to become readable, then services `insock` and after it `outsock`:
    read up to `BLOCK` bytes, write them to the other socket, add them to a
    local counter. The first failure ends the loop; both sockets are then
    shut down and closed and the local counter is added to `total_data`.

    The system calls are not performed: a trace of `Iteration`s says what
    each `select`, `read` and `write` returned. `bytes` is `unsigned long
    long` in the source, so a read that fails with -1 is seen as 2^64 - 1;
    `ReadCheck.Unsigned` is that behaviour, `ReadCheck.Signed` the corrected
    one where a negative read ends the loop. */
module Relay {
  import opened Base

  /** The two descriptors `copy` was given: `insock` and `outsock`. */
  datatype Side = In | Out

  function Opposite(s: Side): Side {
    if s == In then Out else In
  }

  /** What `read(sock, buf, BLOCK)` can deliver: at most `BLOCK` bytes. */
  type Block = s: seq<byte> | |s| <= BLOCK

  /** What one `read` did: returned a chunk (the empty chunk is the return
      value 0, end of stream) or failed with -1. */
  datatype ReadOutcome = Got(chunk: Block) | Failed

  /** The `ssize_t` value `read` returned. */
  function Returned(r: ReadOutcome): int {
    if r.Got? then |r.chunk| else -1
  }

  /** One serviced socket: the read, and what the `write` of the bytes read
      to the other socket returned. */
  datatype Transfer = Transfer(read: ReadOutcome, written: int)

  /** One pass of the `while(1)` loop: what `select` returned and, for each
      socket it reported readable, the transfer on that socket. */
  datatype Iteration = Iteration(selected: int, inbound: Option<Transfer>, outbound: Option<Transfer>)

  function Ready(it: Iteration, side: Side): Option<Transfer> {
    if side == In then it.inbound else it.outbound
  }

  /** How the read result is tested: as the source does (`bytes` unsigned,
      so `<= 0` only catches 0) or as a signed `ssize_t`. */
  datatype ReadCheck = Unsigned | Signed

  /** Why the loop ended: `select` timed out (returned 0) or failed, a read
      returned 0 or failed, or a write did not return the count read. */
  datatype Stop = Idle | SelectError | PeerClosed(side: Side) | ReadError(side: Side) | ShortWrite(side: Side)

  /** A chunk that was read from `from` in pass `round` and written in full
      to the opposite socket. */
  datatype Chunk = Chunk(round: nat, from: Side, data: Block)

  /** The number of bytes in a list of chunks. */
  function TotalLen(cs: seq<Chunk>): nat {
    if cs == [] then 0 else TotalLen(cs[..|cs| - 1]) + |cs[|cs| - 1].data|
  }

  // ---------------------------------------------------------------------
  // When the loop ends, stated outcome by outcome.

  /** Whether servicing `t` ends the loop. A chunk ends it when it is empty
      or the write returned another count. A failed read is caught by the
      signed test; under the unsigned test it becomes 2^64 - 1, which only a
      write that also returned -1 matches. */
  predicate Breaks(t: Transfer, check: ReadCheck) {
    match t.read
    case Got(d) =>
      |d| == 0 || (if check == Unsigned then ToU64(t.written) != |d| else t.written != |d|)
    case Failed =>
      check == Signed || ToU64(t.written) != U64 - 1
  }

  /** Whether pass `it` is the last one. */
  predicate Ends(it: Iteration, check: ReadCheck) {
    || it.selected <= 0
    || (it.inbound.Some? && Breaks(it.inbound.value, check))
    || (it.outbound.Some? && Breaks(it.outbound.value, check))
  }

  /** Whether `side` was serviced in pass `it`: `select` reported activity,
      and for `outsock`, `insock` did not end the pass first. */
  predicate Serviced(it: Iteration, side: Side, check: ReadCheck) {
    it.selected > 0 && (side == Out ==> !(it.inbound.Some? && Breaks(it.inbound.value, check)))
  }

  /** The stop reason `s` names what transfer `t` did wrong. */
  predicate Causes(t: Transfer, s: Stop, check: ReadCheck) {
    match s
    case PeerClosed(_) => t.read == Got([])
    case ReadError(_) => check == Signed && t.read == Failed
    case ShortWrite(_) => Breaks(t, check) && t.read != Got([]) && (check == Signed ==> t.read.Got?)
    case _ => false
  }

  /** The stop reason `s` describes what happened in pass `it`. */
  predicate Explains(it: Iteration, s: Stop, check: ReadCheck) {
    if s == Idle then it.selected == 0
    else if s == SelectError then it.selected < 0
    else Serviced(it, s.side, check) && Ready(it, s.side).Some? && Causes(Ready(it, s.side).value, s, check)
  }

  /** Whether `side` was serviced in pass `it` with a read that failed and
      that the read test did not catch, so that the loop went on as if
      2^64 - 1 bytes had been moved. */
  predicate Swallows(it: Iteration, side: Side, check: ReadCheck) {
    && Serviced(it, side, check)
    && Ready(it, side).Some?
    && Ready(it, side).value.read == Failed
    && !Breaks(Ready(it, side).value, check)
  }

  /** The failed reads pass `it` lets through: 0, 1 or 2. */
  function PassSwallows(it: Iteration, check: ReadCheck): nat {
    (if Swallows(it, In, check) then 1 else 0) + (if Swallows(it, Out, check) then 1 else 0)
  }

  /** The failed reads let through in the first `n` passes of `trace`. */
  function SwallowedIn(trace: seq<Iteration>, n: nat, check: ReadCheck): nat
    requires n <= |trace|
  {
    if n == 0 then 0 else SwallowedIn(trace, n - 1, check) + PassSwallows(trace[n - 1], check)
  }

  // ---------------------------------------------------------------------
  // The loop.

  /** What servicing one socket came to: `count` bytes moved, or the loop ends. */
  datatype SideResult = Moved(count: nat) | Broke(stop: Stop)

  /** Lines 220-224 (and 227-231): read, test, write, test. */
  function Service(side: Side, t: Transfer, check: ReadCheck): SideResult {
    match check
    case Unsigned =>
      var bytes := ToU64(Returned(t.read));
      if bytes == 0 then Broke(PeerClosed(side))
      else if ToU64(t.written) != bytes then Broke(ShortWrite(side))
      else Moved(bytes)
    case Signed =>
      var bytes := Returned(t.read);
      if bytes == 0 then Broke(PeerClosed(side))
      else if bytes < 0 then Broke(ReadError(side))
      else if t.written != bytes then Broke(ShortWrite(side))
      else Moved(bytes)
  }

  /** The effect of one pass: why it ended the loop (if it did), the chunks
      it forwarded, the amount it added to `local_data`, and how many failed
      reads it counted as data. */
  datatype Pass = Pass(stop: Option<Stop>, delivered: seq<Chunk>, added: nat, swallowed: nat)

  function ServiceSide(t: Option<Transfer>, side: Side, k: nat, check: ReadCheck): Pass {
    if t.None? then Pass(None, [], 0, 0)
    else
      match Service(side, t.value, check)
      case Broke(s) => Pass(Some(s), [], 0, 0)
      case Moved(n) =>
        if t.value.read.Got? then Pass(None, [Chunk(k, side, t.value.read.chunk)], n, 0)
        else Pass(None, [], n, 1)
  }

  /** Pass number `k` of the loop (lines 205-232). */
  function PassOf(it: Iteration, k: nat, check: ReadCheck): Pass {
    if it.selected <= 0 then Pass(Some(if it.selected == 0 then Idle else SelectError), [], 0, 0)
    else
      var a := ServiceSide(it.inbound, In, k, check);
      if a.stop.Some? then a
      else
        var b := ServiceSide(it.outbound, Out, k, check);
        Pass(b.stop, a.delivered + b.delivered, a.added + b.added, a.swallowed + b.swallowed)
  }

  /** The state of a `copy` call: why it ended (None while the trace has not
      ended it), how many passes it made, the chunks forwarded, `local_data`
      (an `unsigned long long`), and the failed reads counted as data. */
  datatype Copied = Copied(stop: Option<Stop>, rounds: nat, delivered: seq<Chunk>, local: nat, swallowed: nat)

  /** The state after pass number `acc.rounds`. */
  function Advance(trace: seq<Iteration>, check: ReadCheck, acc: Copied): Copied
    requires acc.rounds < |trace|
  {
    var k := acc.rounds;
    var p := PassOf(trace[k], k, check);
    Copied(p.stop, k + 1, acc.delivered + p.delivered, (acc.local + p.added) % U64, acc.swallowed + p.swallowed)
  }

  /** The `while(1)` loop: pass after pass until one ends it or the trace runs out. */
  function Loop(trace: seq<Iteration>, check: ReadCheck, acc: Copied): (r: Copied)
    requires acc.rounds <= |trace|
    ensures acc.rounds <= r.rounds <= |trace|
    decreases |trace| - acc.rounds
  {
    if acc.rounds == |trace| then acc
    else
      var next := Advance(trace, check, acc);
      if next.stop.Some? then next else Loop(trace, check, next)
  }

  /** `copy(insock, outsock)` run against the outcomes in `trace`. */
  function Copy(trace: seq<Iteration>, check: ReadCheck): (r: Copied)
    ensures r.rounds <= |trace|
  {
    Loop(trace, check, Copied(None, 0, [], 0, 0))
  }

  /** Lines 234-244: once the loop has ended and both sockets are closed,
      `local_data` is added to `total_data`; a session still relaying has
      not touched it. */
  function Settle(total: nat, r: Copied): nat {
    if r.stop.Some? then (total + r.local) % U64 else total
  }

  // ---------------------------------------------------------------------
  // What a call forwards.

  /** The transfer on `c.from` in pass `c.round` read `c.data`, and the
      write of it to the other socket returned its whole length. */
  predicate Transferred(trace: seq<Iteration>, c: Chunk, check: ReadCheck) {
    && c.round < |trace|
    && Ready(trace[c.round], c.from).Some?
    && Ready(trace[c.round], c.from).value.read == Got(c.data)
    && |c.data| > 0
    && !Breaks(Ready(trace[c.round], c.from).value, check)
  }

  /** `c` was read in full from `c.from` in its pass, which the loop reached
      (for `outsock`, `insock` did not end the pass first), and the write of
      it to the other socket returned its whole length. */
  predicate Forwarded(trace: seq<Iteration>, c: Chunk, check: ReadCheck) {
    && c.round < |trace|
    && Serviced(trace[c.round], c.from, check)
    && Transferred(trace, c, check)
  }

  predicate Precedes(a: Chunk, b: Chunk) {
    a.round < b.round || (a.round == b.round && a.from == In && b.from == Out)
  }

  /** Chunks in the order the loop handles them: pass by pass, `insock`
      before `outsock`. */
  predicate InOrder(cs: seq<Chunk>) {
    forall i, j :: 0 <= i < j < |cs| ==> Precedes(cs[i], cs[j])
  }

  /** Every chunk read and written in full during the first `n` passes is in `cs`. */
  predicate Complete(trace: seq<Iteration>, check: ReadCheck, n: nat, cs: seq<Chunk>)
    requires n <= |trace|
  {
    forall j, side ::
      0 <= j < n && Serviced(trace[j], side, check) && Ready(trace[j], side).Some?
      && Ready(trace[j], side).value.read.Got? && !Breaks(Ready(trace[j], side).value, check)
      ==> Chunk(j, side, Ready(trace[j], side).value.read.chunk) in cs
  }

  /** `local_data` is the forwarded byte count less one per swallowed read,
      as an `unsigned long long`. */
  predicate LocalOk(acc: Copied) {
    acc.local == (TotalLen(acc.delivered) - acc.swallowed) % U64
  }

  /** What holds of the forwarded chunks and the counter after any number of passes. */
  predicate Accounted(trace: seq<Iteration>, check: ReadCheck, acc: Copied) {
    && acc.rounds <= |trace|
    && (forall c :: c in acc.delivered ==> c.round < acc.rounds && Forwarded(trace, c, check))
    && InOrder(acc.delivered)
    && Complete(trace, check, acc.rounds, acc.delivered)
    && LocalOk(acc)
    && (check == Signed ==> acc.swallowed == 0)
  }

  predicate Running(trace: seq<Iteration>, check: ReadCheck, acc: Copied) {
    && acc.stop.None?
    && Accounted(trace, check, acc)
    && (forall j :: 0 <= j < acc.rounds ==> !Ends(trace[j], check))
  }

  // ---------------------------------------------------------------------
  // Proofs.

  lemma {:induction false} TotalLenAppend(a: seq<Chunk>, b: seq<Chunk>)
    ensures TotalLen(a + b) == TotalLen(a) + TotalLen(b)
    decreases |b|
  {
    if b != [] {
      var b' := b[..|b| - 1];
      assert (a + b)[..|a + b| - 1] == a + b';
      TotalLenAppend(a, b');
    } else {
      assert a + b == a;
    }
  }

  /** One socket of one pass, on its own. */
  lemma SideFacts(trace: seq<Iteration>, k: nat, side: Side, check: ReadCheck)
    requires k < |trace|
    ensures var t, q := Ready(trace[k], side), ServiceSide(Ready(trace[k], side), side, k, check);
      && (q.stop.Some? <==> t.Some? && Breaks(t.value, check))
      && (q.stop.Some? ==> !q.stop.value.Idle? && !q.stop.value.SelectError? && q.stop.value.side == side && Causes(t.value, q.stop.value, check))
      && (q.stop.Some? ==> q.delivered == [] && q.added == 0)
      && |q.delivered| <= 1
      && (forall c :: c in q.delivered ==> c.round == k && c.from == side && Transferred(trace, c, check))
      && (t.Some? && t.value.read.Got? && !Breaks(t.value, check) ==> q.delivered == [Chunk(k, side, t.value.read.chunk)])
      && q.added == TotalLen(q.delivered) + q.swallowed * (U64 - 1)
      && q.swallowed <= 1
      && (check == Signed ==> q.swallowed == 0)
  {
    var t := Ready(trace[k], side);
    var q := ServiceSide(t, side, k, check);
    if q.delivered != [] {
      assert q.delivered[..0] == [];
    }
  }

  /** One pass ends the loop exactly when `Ends` says so, for the reason it gives. */
  lemma PassStops(trace: seq<Iteration>, k: nat, check: ReadCheck)
    requires k < |trace|
    ensures var it, p := trace[k], PassOf(trace[k], k, check);
      && (p.stop.Some? <==> Ends(it, check))
      && (p.stop.Some? ==> Explains(it, p.stop.value, check))
  {
    if trace[k].selected > 0 {
      SideFacts(trace, k, In, check);
      SideFacts(trace, k, Out, check);
    }
  }

  /** The chunks one pass forwards: read and written in full, `insock` first. */
  lemma PassForwards(trace: seq<Iteration>, k: nat, check: ReadCheck)
    requires k < |trace|
    ensures var p := PassOf(trace[k], k, check);
      && (forall c :: c in p.delivered ==> c.round == k && Forwarded(trace, c, check))
      && InOrder(p.delivered)
  {
    var it := trace[k];
    var p := PassOf(it, k, check);
    if it.selected > 0 {
      SideFacts(trace, k, In, check);
      SideFacts(trace, k, Out, check);
      var a := ServiceSide(it.inbound, In, k, check);
      var b := ServiceSide(it.outbound, Out, k, check);
      if a.stop.None? {
        assert p.delivered == a.delivered + b.delivered;
        assert InOrder(p.delivered) by {
          if |a.delivered| == 1 && |b.delivered| == 1 {
            assert a.delivered[0] in a.delivered && b.delivered[0] in b.delivered;
          }
        }
        forall c | c in p.delivered
          ensures c.round == k && Forwarded(trace, c, check)
        {
          assert c in a.delivered || c in b.delivered;
        }
      }
    }
  }

  /** Every socket a pass services with a complete transfer contributes its chunk. */
  lemma PassComplete(trace: seq<Iteration>, k: nat, check: ReadCheck)
    requires k < |trace|
    ensures var it, p := trace[k], PassOf(trace[k], k, check);
      forall side :: Serviced(it, side, check) && Ready(it, side).Some?
        && Ready(it, side).value.read.Got? && !Breaks(Ready(it, side).value, check)
        ==> Chunk(k, side, Ready(it, side).value.read.chunk) in p.delivered
  {
    if trace[k].selected > 0 {
      SideFacts(trace, k, In, check);
      SideFacts(trace, k, Out, check);
    }
  }

  /** What one pass adds to `local_data`. */
  lemma PassAdds(trace: seq<Iteration>, k: nat, check: ReadCheck)
    requires k < |trace|
    ensures var p := PassOf(trace[k], k, check);
      && p.added == TotalLen(p.delivered) + p.swallowed * (U64 - 1)
      && p.swallowed <= 2
      && (check == Signed ==> p.swallowed == 0)
  {
    var it := trace[k];
    var p := PassOf(it, k, check);
    if it.selected > 0 {
      SideFacts(trace, k, In, check);
      SideFacts(trace, k, Out, check);
      var a := ServiceSide(it.inbound, In, k, check);
      var b := ServiceSide(it.outbound, Out, k, check);
      if a.stop.None? {
        TotalLenAppend(a.delivered, b.delivered);
        assert a.swallowed * (U64 - 1) + b.swallowed * (U64 - 1) == (a.swallowed + b.swallowed) * (U64 - 1);
      }
    }
  }

  /** The failed reads one socket of one pass lets through. */
  lemma SideSwallows(trace: seq<Iteration>, k: nat, side: Side, check: ReadCheck)
    requires k < |trace|
    ensures var t := Ready(trace[k], side);
      ServiceSide(t, side, k, check).swallowed ==
        (if t.Some? && t.value.read == Failed && !Breaks(t.value, check) then 1 else 0)
  {
  }

  /** The failed reads a pass counts as data are those `PassSwallows` finds. */
  lemma PassSwallowed(trace: seq<Iteration>, k: nat, check: ReadCheck)
    requires k < |trace|
    ensures PassOf(trace[k], k, check).swallowed == PassSwallows(trace[k], check)
  {
    if trace[k].selected > 0 {
      SideFacts(trace, k, In, check);
      SideSwallows(trace, k, In, check);
      SideSwallows(trace, k, Out, check);
    }
  }

  lemma InOrderAppend(a: seq<Chunk>, b: seq<Chunk>, k: nat)
    requires InOrder(a) && InOrder(b)
    requires forall c :: c in a ==> c.round < k
    requires forall c :: c in b ==> c.round == k
    ensures InOrder(a + b)
  {
    var ab := a + b;
    forall i, j | 0 <= i < j < |ab|
      ensures Precedes(ab[i], ab[j])
    {
      if j < |a| {
        assert ab[i] == a[i] && ab[j] == a[j];
      } else if i >= |a| {
        assert ab[i] == b[i - |a|] && ab[j] == b[j - |a|];
      } else {
        assert ab[i] == a[i] && ab[j] == b[j - |a|];
        assert a[i] in a && b[j - |a|] in b;
      }
    }
  }

  /** The counter after adding a pass to the running total: a swallowed
      read adds 2^64 - 1, which is one less modulo 2^64. */
  lemma AddPass(local: nat, t: nat, s: nat, pt: nat, ps: nat)
    requires local == (t - s) % U64
    requires ps <= 2
    ensures (local + (pt + ps * (U64 - 1))) % U64 == ((t + pt) - (s + ps)) % U64
  {
    var added := pt + ps * (U64 - 1);
    ModAdd(t - s, added);
    assert added == (pt - ps) + ps * U64;
    ModMultiple((t + pt) - (s + ps), ps);
  }

  lemma NextComplete(trace: seq<Iteration>, check: ReadCheck, acc: Copied)
    requires Running(trace, check, acc) && acc.rounds < |trace|
    ensures Complete(trace, check, acc.rounds + 1, Advance(trace, check, acc).delivered)
  {
    var k := acc.rounds;
    PassComplete(trace, k, check);
    var next := Advance(trace, check, acc);
    assert forall c :: c in acc.delivered ==> c in next.delivered;
    assert forall c :: c in PassOf(trace[k], k, check).delivered ==> c in next.delivered;
  }

  lemma NextForwarded(trace: seq<Iteration>, check: ReadCheck, acc: Copied)
    requires Running(trace, check, acc) && acc.rounds < |trace|
    ensures var next := Advance(trace, check, acc);
      && (forall c :: c in next.delivered ==> c.round < next.rounds && Forwarded(trace, c, check))
      && InOrder(next.delivered)
  {
    var k := acc.rounds;
    var p := PassOf(trace[k], k, check);
    var next := Advance(trace, check, acc);
    PassForwards(trace, k, check);
    assert forall c :: c in next.delivered ==> c in acc.delivered || c in p.delivered;
    InOrderAppend(acc.delivered, p.delivered, k);
  }

  lemma NextLocal(trace: seq<Iteration>, check: ReadCheck, acc: Copied)
    requires acc.rounds < |trace| && LocalOk(acc)
    ensures LocalOk(Advance(trace, check, acc))
  {
    var p := PassOf(trace[acc.rounds], acc.rounds, check);
    var next := Advance(trace, check, acc);
    assert next == Copied(p.stop, acc.rounds + 1, acc.delivered + p.delivered,
                          (acc.local + p.added) % U64, acc.swallowed + p.swallowed);
    PassAdds(trace, acc.rounds, check);
    LocalStep(acc, p, next);
  }

  lemma NextSigned(trace: seq<Iteration>, check: ReadCheck, acc: Copied)
    requires acc.rounds < |trace|
    requires check == Signed && acc.swallowed == 0
    ensures Advance(trace, check, acc).swallowed == 0
  {
    PassAdds(trace, acc.rounds, check);
  }

  /** The `local_data` bookkeeping of one pass, apart from the pass itself. */
  lemma LocalStep(acc: Copied, p: Pass, next: Copied)
    requires LocalOk(acc)
    requires p.added == TotalLen(p.delivered) + p.swallowed * (U64 - 1) && p.swallowed <= 2
    requires next.delivered == acc.delivered + p.delivered
    requires next.local == (acc.local + p.added) % U64
    requires next.swallowed == acc.swallowed + p.swallowed
    ensures LocalOk(next)
  {
    TotalLenAppend(acc.delivered, p.delivered);
    AddPass(acc.local, TotalLen(acc.delivered), acc.swallowed, TotalLen(p.delivered), p.swallowed);
  }

  lemma NextAccounted(trace: seq<Iteration>, check: ReadCheck, acc: Copied)
    requires Running(trace, check, acc) && acc.rounds < |trace|
    ensures Accounted(trace, check, Advance(trace, check, acc))
  {
    NextForwarded(trace, check, acc);
    NextComplete(trace, check, acc);
    NextLocal(trace, check, acc);
    if check == Signed {
      NextSigned(trace, check, acc);
    }
  }

  /** One pass from a running state: either the loop runs on, or it stops
      at this pass for a reason `Ends` gives and `Explains` describes. */
  lemma NextStep(trace: seq<Iteration>, check: ReadCheck, acc: Copied)
    requires Running(trace, check, acc) && acc.rounds < |trace|
    ensures var next := Advance(trace, check, acc);
      && Accounted(trace, check, next)
      && next.rounds == acc.rounds + 1
      && (next.stop.None? ==> Running(trace, check, next))
      && (next.stop.Some? ==> Ends(trace[acc.rounds], check) && Explains(trace[acc.rounds], next.stop.value, check))
  {
    PassStops(trace, acc.rounds, check);
    NextAccounted(trace, check, acc);
  }

  /** No pass before `acc.rounds` ended the loop. */
  predicate Unbroken(trace: seq<Iteration>, check: ReadCheck, acc: Copied) {
    && acc.stop.None?
    && acc.rounds <= |trace|
    && (forall j :: 0 <= j < acc.rounds ==> !Ends(trace[j], check))
  }

  /** Where the loop stops: at the first pass that ends it, for the
      reason that pass gives; or nowhere, having consumed the trace. */
  lemma {:induction false} LoopStops(trace: seq<Iteration>, check: ReadCheck, acc: Copied)
    requires Unbroken(trace, check, acc)
    ensures var r := Loop(trace, check, acc);
      && acc.rounds <= r.rounds <= |trace|
      && (r.stop.None? ==> Unbroken(trace, check, r) && r.rounds == |trace|)
      && (r.stop.Some? ==>
            && 1 <= r.rounds
            && Ends(trace[r.rounds - 1], check)
            && Explains(trace[r.rounds - 1], r.stop.value, check)
            && forall j :: 0 <= j < r.rounds - 1 ==> !Ends(trace[j], check))
    decreases |trace| - acc.rounds
  {
    if acc.rounds < |trace| {
      var k := acc.rounds;
      var next := Advance(trace, check, acc);
      PassStops(trace, k, check);
      if next.stop.None? {
        LoopStops(trace, check, next);
        assert Loop(trace, check, acc) == Loop(trace, check, next);
      } else {
        assert Loop(trace, check, acc) == next;
      }
    }
  }

  /** What the loop keeps true from one pass to the next, carried to its end. */
  lemma {:induction false} LoopAccounts(trace: seq<Iteration>, check: ReadCheck, acc: Copied)
    requires Running(trace, check, acc)
    ensures Accounted(trace, check, Loop(trace, check, acc))
    decreases |trace| - acc.rounds
  {
    if acc.rounds < |trace| {
      var next := Advance(trace, check, acc);
      NextStep(trace, check, acc);
      if next.stop.None? {
        LoopAccounts(trace, check, next);
        assert Loop(trace, check, acc) == Loop(trace, check, next);
      } else {
        assert Loop(trace, check, acc) == next;
      }
    }
  }

  /** `local_data` tracks the forwarded bytes less the swallowed reads
      through every pass of the loop. */
  lemma {:induction false} LoopLocal(trace: seq<Iteration>, check: ReadCheck, acc: Copied)
    requires acc.rounds <= |trace| && LocalOk(acc)
    requires check == Signed ==> acc.swallowed == 0
    ensures var r := Loop(trace, check, acc);
      LocalOk(r) && (check == Signed ==> r.swallowed == 0)
    decreases |trace| - acc.rounds
  {
    if acc.rounds < |trace| {
      var next := Advance(trace, check, acc);
      NextLocal(trace, check, acc);
      if check == Signed {
        NextSigned(trace, check, acc);
      }
      if next.stop.None? {
        LoopLocal(trace, check, next);
        assert Loop(trace, check, acc) == Loop(trace, check, next);
      } else {
        assert Loop(trace, check, acc) == next;
      }
    }
  }

  /** The loop's count of swallowed reads is the trace's, pass for pass. */
  lemma {:induction false} LoopSwallows(trace: seq<Iteration>, check: ReadCheck, acc: Copied)
    requires acc.rounds <= |trace| && acc.swallowed == SwallowedIn(trace, acc.rounds, check)
    ensures var r := Loop(trace, check, acc);
      r.rounds <= |trace| && r.swallowed == SwallowedIn(trace, r.rounds, check)
    decreases |trace| - acc.rounds
  {
    if acc.rounds < |trace| {
      var next := Advance(trace, check, acc);
      PassSwallowed(trace, acc.rounds, check);
      assert next.swallowed == SwallowedIn(trace, next.rounds, check);
      if next.stop.None? {
        LoopSwallows(trace, check, next);
        assert Loop(trace, check, acc) == Loop(trace, check, next);
      } else {
        assert Loop(trace, check, acc) == next;
      }
    }
  }

  lemma LoopKeeps(trace: seq<Iteration>, check: ReadCheck, acc: Copied)
    requires Running(trace, check, acc)
    ensures var r := Loop(trace, check, acc);
      && Accounted(trace, check, r)
      && acc.rounds <= r.rounds
      && (r.stop.None? ==> r.rounds == |trace| && forall j :: 0 <= j < r.rounds ==> !Ends(trace[j], check))
      && (r.stop.Some? ==>
            && 1 <= r.rounds
            && Ends(trace[r.rounds - 1], check)
            && Explains(trace[r.rounds - 1], r.stop.value, check)
            && forall j :: 0 <= j < r.rounds - 1 ==> !Ends(trace[j], check))
  {
    LoopStops(trace, check, acc);
    LoopAccounts(trace, check, acc);
  }

  /** The loop ends exactly at the first pass in which `select` returns 0 or
      less, a serviced read returns 0 (or, signed, fails), or a write returns
      another count than the one read; until then it keeps going. */
  lemma CopyEndsExactly(trace: seq<Iteration>, check: ReadCheck)
    ensures var r := Copy(trace, check);
      && r.rounds <= |trace|
      && (r.stop.Some? <==> exists j :: 0 <= j < |trace| && Ends(trace[j], check))
      && (r.stop.Some? ==> 1 <= r.rounds && Ends(trace[r.rounds - 1], check)
                            && Explains(trace[r.rounds - 1], r.stop.value, check))
      && (forall j :: 0 <= j < |trace| && Ends(trace[j], check) ==> r.stop.Some? && r.rounds - 1 <= j)
      && (r.stop.None? ==> r.rounds == |trace|)
  {
    LoopKeeps(trace, check, Copied(None, 0, [], 0, 0));
  }

  /** Each forwarded chunk is a read passed unchanged to the other socket;
      chunks come pass by pass, `insock` before `outsock`; and every chunk
      read and written in full before the loop ended is among them. */
  lemma CopyForwardsVerbatim(trace: seq<Iteration>, check: ReadCheck)
    ensures var r := Copy(trace, check);
      && (forall c :: c in r.delivered ==> c.round < r.rounds && Forwarded(trace, c, check))
      && InOrder(r.delivered)
      && r.rounds <= |trace|
      && Complete(trace, check, r.rounds, r.delivered)
  {
    LoopKeeps(trace, check, Copied(None, 0, [], 0, 0));
  }

  /** When `insock` reports end of stream, the pass ends before `outsock` is
      read, even if `outsock` was ready with data: nothing is forwarded. */
  lemma ClosedBeforeOutsock(check: ReadCheck)
    ensures var trace := [Iteration(1, Some(Transfer(Got([]), 0)), Some(Transfer(Got([1]), 1)))];
      && Copy(trace, check) == Copied(Some(PeerClosed(In)), 1, [], 0, 0)
      && !Forwarded(trace, Chunk(0, Out, [1]), check)
  {
  }

  /** `local_data` is the size of the forwarded chunks less one for every
      failed read the read test let through (each adds 2^64 - 1), modulo
      2^64; those reads are exactly the ones `SwallowedIn` counts in the
      passes the call made. The signed test lets none through. */
  lemma CopyAccounting(trace: seq<Iteration>, check: ReadCheck)
    ensures var r := Copy(trace, check);
      && r.swallowed == SwallowedIn(trace, r.rounds, check)
      && r.local == (TotalLen(r.delivered) - r.swallowed) % U64
      && (check == Signed ==> r.swallowed == 0 && r.local == TotalLen(r.delivered) % U64)
  {
    var init := Copied(None, 0, [], 0, 0);
    assert SwallowedIn(trace, 0, check) == 0;
    assert LocalOk(init);
    LoopLocal(trace, check, init);
    LoopSwallows(trace, check, init);
  }

  /** Once the session has ended, `total_data` grows by the bytes it
      forwarded less one per swallowed failed read, modulo 2^64; with the
      signed test, by exactly the bytes forwarded. A session still relaying
      has not touched it. */
  lemma SettleCountsForwarded(total: nat, trace: seq<Iteration>, check: ReadCheck)
    requires total < U64
    ensures var r := Copy(trace, check);
      && (r.stop.Some? ==>
            Settle(total, r) == (total + TotalLen(r.delivered) - SwallowedIn(trace, r.rounds, check)) % U64)
      && (r.stop.Some? && check == Signed ==> Settle(total, r) == (total + TotalLen(r.delivered)) % U64)
      && (r.stop.None? ==> Settle(total, r) == total)
  {
    var r := Copy(trace, check);
    CopyAccounting(trace, check);
    if r.stop.Some? {
      ModAdd(TotalLen(r.delivered) - r.swallowed, total);
    }
  }

  /** A session whose first `select` times out is torn down at once with
      nothing forwarded and nothing counted. */
  lemma IdleTeardown(total: nat, trace: seq<Iteration>, check: ReadCheck)
    requires total < U64
    requires trace != [] && trace[0].selected == 0
    ensures var r := Copy(trace, check);
      r.stop == Some(Idle) && r.rounds == 1 && r.delivered == [] && Settle(total, r) == total
  {
  }

  // ---------------------------------------------------------------------
  // The unsigned read test (main.c 187, 220, 227).

  /** As written: `read` fails (-1, seen as 2^64 - 1), the write of that
      many bytes fails too (-1, also 2^64 - 1), so the pass goes on and
      `local_data` drops by one; the session ends only at the next timeout
      and `total_data` ends up one lower than before. */
  lemma ReadErrorSwallowed()
    ensures var trace := [Iteration(1, Some(Transfer(Failed, -1)), None), Iteration(0, None, None)];
      var r := Copy(trace, Unsigned);
      && r.stop == Some(Idle) && r.rounds == 2
      && r.delivered == [] && r.swallowed == 1
      && SwallowedIn(trace, r.rounds, Unsigned) == 1
      && Settle(10, r) == 9
  {
    var trace := [Iteration(1, Some(Transfer(Failed, -1)), None), Iteration(0, None, None)];
    var p0 := PassOf(trace[0], 0, Unsigned);
    assert p0 == Pass(None, [], U64 - 1, 1);
    var acc1 := Copied(None, 1, [], U64 - 1, 1);
    assert Copy(trace, Unsigned) == Loop(trace, Unsigned, acc1);
    assert PassOf(trace[1], 1, Unsigned) == Pass(Some(Idle), [], 0, 0);
  }

  /** Corrected: with the signed test the same failed read ends the session
      in its first pass and the counter is unchanged. */
  lemma ReadErrorEndsSession()
    ensures var trace := [Iteration(1, Some(Transfer(Failed, -1)), None), Iteration(0, None, None)];
      var r := Copy(trace, Signed);
      && r.stop == Some(ReadError(In)) && r.rounds == 1
      && r.delivered == [] && Settle(10, r) == 10
  {
  }

  // ---------------------------------------------------------------------
  // Sessions one after another (the SELECT build).

  /** What a `copy` call that has ended contributes to `total_data`: the
      bytes it forwarded, less one per failed read it let through. */
  function Relayed(r: Copied): int {
    TotalLen(r.delivered) - r.swallowed
  }

  /** The plain sum of what successive `copy` calls contribute, up to the
      first one that has not ended, which contributes nothing. */
  function SumRelayed(runs: seq<Copied>): int {
    if runs == [] || runs[0].stop.None? then 0 else Relayed(runs[0]) + SumRelayed(runs[1..])
  }

  /** `total_data` after `copy` calls with results `runs`, one after another
      (lines 505-510). `copy` blocks, so a call the trace has not ended is
      still relaying and the calls after it never start. */
  function ServeAll(total: nat, runs: seq<Copied>): nat
    decreases |runs|
  {
    if runs == [] || runs[0].stop.None? then total
    else ServeAll(Settle(total, runs[0]), runs[1..])
  }

  /** The results of running each session's trace through `copy`. */
  function Runs(sessions: seq<seq<Iteration>>, check: ReadCheck): (runs: seq<Copied>)
    ensures |runs| == |sessions|
    ensures forall i :: 0 <= i < |sessions| ==> runs[i] == Copy(sessions[i], check)
  {
    seq(|sessions|, i requires 0 <= i < |sessions| => Copy(sessions[i], check))
  }

  /** Settling one run after another adds their contributions once, modulo 2^64. */
  lemma {:induction false} CounterAfterRuns(total: nat, runs: seq<Copied>)
    requires total < U64
    requires forall i :: 0 <= i < |runs| ==> LocalOk(runs[i])
    ensures ServeAll(total, runs) == (total + SumRelayed(runs)) % U64
    decreases |runs|
  {
    if runs != [] && runs[0].stop.Some? {
      var t1 := Settle(total, runs[0]);
      assert t1 == (total + Relayed(runs[0])) % U64 by {
        ModAdd(Relayed(runs[0]), total);
      }
      forall i | 0 <= i < |runs[1..]|
        ensures LocalOk(runs[1..][i])
      {
        assert runs[1..][i] == runs[i + 1];
      }
      CounterAfterRuns(t1, runs[1..]);
      ChainStep(total, Relayed(runs[0]), SumRelayed(runs[1..]), t1, ServeAll(t1, runs[1..]));
    }
  }

  /** Two settlements in a row add their amounts once, modulo 2^64. */
  lemma ChainStep(total: int, rel: int, more: int, t1: int, last: int)
    requires t1 == (total + rel) % U64
    requires last == (t1 + more) % U64
    ensures last == (total + (rel + more)) % U64
  {
    ModAdd(total + rel, more);
  }

  /** After any number of sessions run one after another, `total_data` is
      its start value plus every byte they forwarded, less one per failed
      read let through, modulo 2^64; each session's failed reads are those
      its trace shows, and with the signed test there are none. */
  lemma CounterAfterSessions(total: nat, sessions: seq<seq<Iteration>>, check: ReadCheck)
    requires total < U64
    ensures var runs := Runs(sessions, check);
      && ServeAll(total, runs) == (total + SumRelayed(runs)) % U64
      && (forall i :: 0 <= i < |sessions| ==>
            runs[i].swallowed == SwallowedIn(sessions[i], runs[i].rounds, check))
      && (check == Signed ==> forall i :: 0 <= i < |sessions| ==>
            Relayed(runs[i]) == TotalLen(runs[i].delivered))
  {
    var runs := Runs(sessions, check);
    RunsAccounted(sessions, check, runs);
    CounterAfterRuns(total, runs);
  }

  /** `CopyAccounting` for every session's run. */
  lemma RunsAccounted(sessions: seq<seq<Iteration>>, check: ReadCheck, runs: seq<Copied>)
    requires runs == Runs(sessions, check)
    ensures forall i :: 0 <= i < |runs| ==> LocalOk(runs[i])
    ensures forall i :: 0 <= i < |sessions| ==>
      runs[i].swallowed == SwallowedIn(sessions[i], runs[i].rounds, check)
    ensures check == Signed ==> forall i :: 0 <= i < |runs| ==> runs[i].swallowed == 0
  {
    forall i | 0 <= i < |sessions|
      ensures LocalOk(runs[i])
      ensures runs[i].swallowed == SwallowedIn(sessions[i], runs[i].rounds, check)
      ensures check == Signed ==> runs[i].swallowed == 0
    {
      RunAccounted(runs[i], sessions[i], check);
    }
  }

  /** `CopyAccounting` for a result already computed. */
  lemma RunAccounted(r: Copied, trace: seq<Iteration>, check: ReadCheck)
    requires r == Copy(trace, check)
    ensures LocalOk(r) && r.rounds <= |trace|
    ensures r.swallowed == SwallowedIn(trace, r.rounds, check)
    ensures check == Signed ==> r.swallowed == 0
  {
    CopyAccounting(trace, check);
  }

  /** A client sends a message through the forwarder to an echo server:
      it goes one way, comes back, then the link idles out, and
      `total_data` grows by twice its length. `insock` is the downstream
      socket, as in `copy(sock_final, sock_incoming)`. */
  lemma EchoRoundTrip(total: nat, msg: Block, check: ReadCheck)
    requires |msg| > 0 && total + 2 * |msg| < U64
    ensures var trace := [Iteration(1, None, Some(Transfer(Got(msg), |msg|))),
                          Iteration(1, Some(Transfer(Got(msg), |msg|)), None),
                          Iteration(0, None, None)];
      var r := Copy(trace, check);
      && r.stop == Some(Idle)
      && r.delivered == [Chunk(0, Out, msg), Chunk(1, In, msg)]
      && Settle(total, r) == total + 2 * |msg|
  {
    var trace := [Iteration(1, None, Some(Transfer(Got(msg), |msg|))),
                  Iteration(1, Some(Transfer(Got(msg), |msg|)), None),
                  Iteration(0, None, None)];
    var n := |msg|;
    var a1 := Copied(None, 1, [Chunk(0, Out, msg)], n, 0);
    var a2 := Copied(None, 2, [Chunk(0, Out, msg), Chunk(1, In, msg)], 2 * n, 0);
    assert Service(Out, Transfer(Got(msg), n), check) == Moved(n);
    assert PassOf(trace[0], 0, check) == Pass(None, [Chunk(0, Out, msg)], n, 0);
    assert Advance(trace, check, Copied(None, 0, [], 0, 0)) == a1;
    assert Service(In, Transfer(Got(msg), n), check) == Moved(n);
    assert PassOf(trace[1], 1, check) == Pass(None, [Chunk(1, In, msg)], n, 0);
    assert Advance(trace, check, a1) == a2;
    assert PassOf(trace[2], 2, check) == Pass(Some(Idle), [], 0, 0);
    var r := Advance(trace, check, a2);
    assert r == Copied(Some(Idle), 3, a2.delivered, 2 * n, 0);
    assert Loop(trace, check, a2) == r;
    assert Loop(trace, check, a1) == r;
    assert Copy(trace, check) == r;
  }
}
